=== FILE: README.md ===
# Feature-toggle desktop client: a Dafny model

This project models the core of a small desktop client. The client creates features, deletes them and switches them on or off in the feature-toggle service of five deployment environments: dev, test, preprod, stage and prod. The model covers these parts:

- **Config**: the environment registry `ENV_CONFIG`. For each environment it holds the OAuth token endpoint and the base URL of the feature API. A lookup returns an `Option`.
- **Workers**: the per-environment workers.
  - `get_token` posts the user's credentials with the password grant and returns the truthy `access_token`.
  - `get_token_and_notify` emits one event, either the token (shown as its first 30 characters) or the error.
  - `send_request` supports POST, PUT and DELETE, raises for 4xx/5xx statuses, and returns the JSON body or the raw text.
  - The runs of `EnvWorker` (create), `DeleteEnvWorker` and `ActivityUpdateWorker`. The last catches every item's failure and carries on with the next item.
  - The network is an oracle `(call number, request) -> reply`, with call 0 the token request. A run is a pure function that yields its events and the requests it issues, in order.
- **Forms / EnvSelection / Views**: the two tabs.
  - Their fields are whitespace-stripped and validated in a fixed order, producing the list of missing fields.
  - The create tab builds the payload dictionary and parses the comma-separated audience target.
  - The ALL checkbox is kept in step with the five environment boxes by the two handlers. The selected environments are listed in layout order.
  - Submit ends in one of three ways: a warning listing the missing fields, a warning asking for an environment, or one worker per selected environment.
- **Hosts**: the decision logic of `update_hosts`. The operating system's name and the file's contents are parameters. Python's `splitlines` is modelled, and the per-line check is proved to be the same as a substring check on the whole file.

Events are tagged values (`TokenReceived`, `CreateFailed`, …) rather than the Russian message texts.

Three details of the program that are easy to misread:

- `raise_for_status` raises only for statuses 400–599. A final 1xx or 3xx reply (after `requests` has followed any redirects) is treated as a success.
- The activity-update URL carries Python's `str()` of the flag, so it ends in `True` or `False`.
- `DeleteEnvWorker` deletes a single id per run.

## Model

| member | source | states |
|---|---|---|
| Config.Lookup | config.py:9-30 | `ENV_CONFIG.get(key)` is defined exactly for the five keys dev, test, preprod, stage and prod, and returns the configured entry of that key unchanged. Every entry it returns has a token URL and a feature base that ends in `/api/v1/feature` with no trailing slash. |
| Config.RegistryWellFormed | config.py:9-30 | Every registry entry is well formed: a token URL, and a feature base with one path ending and no trailing slash. |
| Config.EntryWellFormed | config.py:9-30 | Any entry made of an identity host plus the realm's token path and a feature host plus `/api/v1/feature` is well formed, whatever the hosts. |
| Text.Strip | views.py:152-166 | `str.strip()` gives a result with no whitespace at either end, no longer than the input, and empty exactly when the input is all whitespace. |
| Text.StripTrimsSpaces | views.py:152-166 | The stripped text is a contiguous slice of the input, with only whitespace before it and only whitespace after it. |
| Text.Split | views.py:159 | `str.split(',')` gives at least one piece. No piece contains the separator, joining the pieces gives the text back, and the count is one more than the number of separators. |
| Text.SplitJoin | views.py:159 | Splitting a comma-join of comma-free parts gives the parts back. |
| Text.Lower | views.py:155 | `lower()` keeps the length and lower-cases each ASCII letter in place. |
| Text.JoinKeepsPartChars | views.py:159 | Every character of every part appears in the join, so the pieces of a split hold only characters of the split text. |
| Workers.GetToken | workers.py:21-52 | An unknown environment issues no request and fails with UnknownEnvironment. A known one issues exactly the password-grant POST to its token URL, and the outcome follows the reply. No reply gives a transport error. A 4xx/5xx status gives the HTTP error with its status and text. A body that is not JSON, or not an object, fails. Otherwise the result is the `access_token` when it is present and truthy, and AccessTokenMissing when it is not. |
| Workers.TokenAndNotify | workers.py:67-78 | Emits exactly one event for the environment, and returns a token exactly when that event is TokenReceived. A GetToken failure yields no token and the event TokenFailed with that same error. A string token t yields Some(t) and the event TokenReceived carrying t's first 30 characters. The shown prefix is at most 30 characters long, and exactly 30 when the token is that long. |
| Workers.Prefix | workers.py:74 | `token[:30]` starts the token and is min(30, length) characters long. |
| Workers.SendRequest | workers.py:80-105 | An unsupported verb issues nothing and fails. POST, PUT and DELETE issue one request with the given URL and headers. The JSON body is attached unless the verb is DELETE. The call succeeds exactly when the reply exists and is not 4xx/5xx, and then yields the parsed JSON if any, else the raw text. A failure re-raises the error unchanged: TransportError when nothing came back, and HttpStatusError with the reply's status and text for a 4xx/5xx status. |
| Workers.RunCreate | workers.py:115-129 | The first event is the token event, and every event names the run's environment. Without a token the run issues only the token request and emits one event. With a token it POSTs the payload to the environment's feature URL with accept, JSON content type and the bearer token, and emits exactly one more event. That event is Created with the reply's JSON or text when the POST is accepted, and otherwise CreateFailed with the transport or HTTP-status error of the reply. |
| Workers.RunDelete | workers.py:139-153 | Same as RunCreate, except that the second request is a body-less DELETE of `base/id` with the accept and bearer headers. The run reports Deleted(id) exactly when that request is accepted, and otherwise DeleteFailed with the reply's transport or HTTP-status error. |
| Workers.UpdateOne | workers.py:170-181 | One pass of the update loop issues a body-less PUT of `base/id/enabled/str(enabled)` with JSON headers. When that PUT is accepted, it yields ActivityUpdated with the id, `str(enabled)` and the reply's JSON or text. Otherwise it yields ActivityUpdateFailed with the id and the reply's transport or HTTP-status error. |
| Workers.UpdateItems | workers.py:170-181 | The loop makes exactly one pass per pair, in list order. Request i is the PUT for pair i, answered by call first+i. Event i names the environment and pair i's id, and it is ActivityUpdated exactly when that call is accepted, ActivityUpdateFailed otherwise. |
| Workers.RunActivityUpdate | workers.py:165-181 | After the token event the run makes one pass per pair, in list order. Pass i is call 1+i. The events and requests of item i are those of UpdateOne on that item, so there are exactly 1 + n events and requests. |
| Workers.Run | workers.py:115-181 | Whatever its job (the create, delete or activity-update run), a worker's run opens with its token event, and every event it emits names its own environment. |
| WorkerFacts.UnknownEnvironmentIssuesNothing | workers.py:31-33 | A worker for an environment that is not configured emits one token-error event and issues no request at all. |
| WorkerFacts.TokenFailureEndsRun | workers.py:116-118 | When the token step fails, every worker emits exactly one error event and issues at most the token request. |
| WorkerFacts.SingleCallRunsEmitTwoEvents | workers.py:115-153 | With a token, the create and delete runs emit exactly two events, the token and then a non-token result, and issue exactly two requests. |
| WorkerFacts.CreateRequestCarriesToken | workers.py:120-124 | The create run's POST carries `Authorization: Bearer <token>` with the token of its own token step. |
| WorkerFacts.DeleteRequestCarriesToken | workers.py:145-148 | The delete run's DELETE carries `Authorization: Bearer <token>` with the token of its own token step. |
| WorkerFacts.UpdateRequestsCarryToken | workers.py:172-176 | Every PUT of the activity-update run carries `Authorization: Bearer <token>` with the token of its own token step. |
| WorkerFacts.FeatureRequestsCarryToken | workers.py:120-124 | Every feature request of any run carries `Authorization: Bearer <token>` with the run's one token. |
| WorkerFacts.EmptyTokenRefused | workers.py:49-51 | A reply whose `access_token` is missing or empty fails with AccessTokenMissing, and notify reports exactly that error. |
| WorkerFacts.TokenObtainedExactly | workers.py:21-78 | A worker holds a token exactly when its environment is configured and the token call's reply is not 4xx/5xx and is a JSON object whose `access_token` is a non-empty string. That string is the token, and the one event shows its first 30 characters. |
| WorkerFacts.UpdateOneIsolated | workers.py:177-181 | Two networks that differ only at call d give the same request, and the same event for any other call. |
| WorkerFacts.UpdateItemsIsolated | workers.py:170-181 | The whole update loop issues the same requests on both networks and emits the same event for every item not answered at call d. |
| WorkerFacts.ActivityUpdateIsolated | workers.py:165-181 | One item's failure does not truncate the batch or change any other item's outcome. Whatever call d answers, the run issues the same requests and emits the same events at every other position. |
| WorkerFacts.UpdateUrlUsesPythonBooleans | workers.py:171 | For id `a.b.c` the URL ends in `/a.b.c/enabled/True` (or `False`), never `true`. |
| EnvSelection.SetChecked | views.py:126-129 | Setting one box changes that box only and leaves ALL alone. |
| EnvSelection.OnAllEnvChanged | views.py:121-129 | Every individual box takes the state of ALL, and ALL is kept. |
| EnvSelection.IndividualEnvChanged | views.py:131-138 | ALL becomes checked exactly when all five boxes are checked. The five boxes are kept. |
| EnvSelection.CheckedAmong | views.py:208 | The filter keeps exactly the checked environments of the list. |
| EnvSelection.CheckedAmongInOrder | views.py:208 | The filter keeps the order of the list. |
| EnvSelection.SelectedEnvs | views.py:208 | `selected_envs` contains exactly the checked environments, in layout order (dev, test, preprod, stage, prod). |
| EnvSelection.NoneSelected | views.py:208-211 | The selection is empty exactly when no box is checked. |
| EnvSelection.ClickAllSyncs | views.py:121-129 | A click on ALL toggles it, sets all five boxes to its new state, and leaves the boxes in step. |
| EnvSelection.ClickEnvSyncs | views.py:131-138 | A click on one box toggles that box only and leaves ALL in step with the five. |
| EnvSelection.AlwaysSynced | views.py:95-138 | From boxes in step, after any sequence of clicks, the boxes are still in step, and ALL is checked exactly when all five environments are selected. |
| EnvSelection.CheckedAmongKeepsAll | views.py:208 | The filter keeps every environment exactly when each one is checked. |
| EnvSelection.SelectedAllIffFive | views.py:208 | All five boxes are checked exactly when five environments are selected. |
| Forms.MissingAmong | views.py:168-185 | The fields picked out are exactly the flagged ones among those listed. |
| Forms.MissingAmongAscending | views.py:168-185 | The fields picked out keep the validation order. |
| Forms.MissingCreateFields | views.py:168-185 | A field is listed exactly when it is required and blank after stripping. The removal date and removal task id are required only when the removal flag reads true. Fields are listed in the order ID, Description, Audience Target, Task ID, Username, Password, Planned Removal Date, Removal Feature Task ID. |
| Forms.MissingDeleteFields | views.py:315-321 | A field is listed exactly when it is one of ID, Username and Password and is blank after stripping. Fields are listed in that order. |
| Forms.KeepNonEmpty | views.py:159 | Every piece kept is non-empty and stripped, and no more pieces come out than went in. Comma-free pieces stay comma-free. |
| Forms.ParseFlag | views.py:155 | A flag is true exactly when its text has four characters that lower-case to `t`, `r`, `u`, `e`. |
| Forms.ParseAudienceTarget | views.py:158-159 | Every service name in the target list is non-empty, has no surrounding whitespace and has no comma. |
| Forms.StripKeepsOnlyOwnChars | views.py:159 | Stripping introduces no character that was not there before. |
| Forms.BuildPayload | views.py:152-206 | The payload's id, description, task id and both removal fields have no surrounding whitespace. Every target name is non-empty, unpadded and comma-free. The team and audience type are the combo box texts as they are. PayloadFlags and PayloadTextsTrimmed complete this: each text is its field's text stripped, and each flag is true exactly when its text lower-cases to "true". |
| FormFacts.JsonStringsRoundTrip | views.py:198-201 | The target list reads back unchanged from its JSON array. |
| Forms.PayloadJson | views.py:193-206 | The payload object has exactly the nine keys of `feature_payload`, including both removal fields even when the feature is not scheduled for removal. |
| FormFacts.PayloadRoundTrip | views.py:193-206 | The payload object has exactly the nine keys, including both removal fields even when not scheduled, and it decodes back to the payload. |
| FormFacts.KeepNonEmptyKeepsClean | views.py:159 | Stripped, non-empty pieces pass through unchanged. |
| FormFacts.KeepNonEmptyDropsBlanks | views.py:159 | Whitespace-only pieces are all dropped. |
| FormFacts.KeepNonEmptyOne | views.py:159 | A single piece gives nothing when it is blank, and otherwise gives itself stripped. |
| FormFacts.KeepNonEmptyCons | views.py:159 | The first piece is handled on its own, and its result comes before the results of the other pieces. |
| FormFacts.KeepNonEmptyMembers | views.py:159 | A name is kept exactly when it is the stripped form of some non-blank piece (StrippedPieceOf). |
| FormFacts.AudienceTargetMembers | views.py:159 | A service name is in the target list exactly when it is the stripped form of some non-blank comma-separated piece of the text. |
| FormFacts.SplitPadded | views.py:159 | `"a , b".split(',')` gives the pieces `"a "` and `" b"`. |
| FormFacts.StripPadded | views.py:159 | `"a ".strip()` is `"a"` and `" b".strip()` is `"b"`. |
| FormFacts.KeepPaddedPieces | views.py:159 | The pieces `"a "` and `" b"` are kept as `"a"` and `"b"`, in that order. |
| FormFacts.PaddedTargetParses | views.py:158-159 | The text `"a , b"` parses to exactly the two services `"a"` and `"b"`, in that order. |
| FormFacts.AudienceTargetRoundTrip | views.py:158-159 | Parsing the comma-join of clean, comma-free service names gives the names back. |
| FormFacts.CommaPiecesAreSpace | views.py:158-159 | When the text holds only commas and whitespace, every piece of its stripped text is whitespace only. |
| FormFacts.CommaOnlyParsesEmpty | views.py:158-159 | Any text of only commas and whitespace parses to the empty target list. |
| FormFacts.CommaTextNotBlank | views.py:173 | A text holding a comma is never blank, so it passes the Audience Target check. |
| FormFacts.CommaOnlyTargetPassesEmpty | views.py:158-174 | Any target text made only of commas and whitespace gives the payload an empty target list. When that text holds at least one comma (`", ,"`, say), it still passes the Audience Target check. |
| FormFacts.PayloadFlags | views.py:154-163 | `enabled` and `isScheduledForRemoval` are true exactly when their combo box text lower-cases to "true". The team and the audience type are the combo box texts unchanged. |
| FormFacts.PayloadTextsTrimmed | views.py:152-164 | Each payload text is its field's text with the surrounding whitespace removed and none left at its ends. The target list is the parse of the stripped target text. |
| FormFacts.ValidFormFilled | views.py:168-176 | A form that passes validation has a non-blank id, description and task id. |
| FormFacts.ValidScheduledFormFilled | views.py:181-186 | A form that passes validation with its removal flag reading true has non-blank removal fields. |
| FormFacts.ValidPayloadFilled | views.py:168-206 | A form that passes validation yields a payload whose id, description and task id are non-empty. When the payload is scheduled for removal, both removal fields are non-empty too. |
| FormFacts.RemovalFieldsRequiredIffScheduled | views.py:181-185 | Each removal field is reported exactly when the removal flag reads true and the field is blank. |
| FormFacts.OtherFieldsAlwaysRequired | views.py:169-180 | The other six fields are reported exactly when blank, whatever the removal flag. |
| FormFacts.ParseFlagExamples | views.py:155 | "true", "True" and "TRUE" parse as true. "false", " true" and "" parse as false. |
| FormFacts.DeleteFieldsMissingIffBlank | views.py:315-321 | ID, Username and Password are each reported exactly when blank, and nothing else is ever reported. |
| Views.WorkersFor | views.py:213-218 | One worker per selected environment, in order. Worker i is for environment i's registry key, which is always configured, and all workers share the credentials and the job. |
| Views.SubmitCreate | views.py:147-218 | Rejected exactly when a field is missing, with that exact list. NoEnvironment exactly when the form is valid and no box is checked. Otherwise one EnvWorker per selected environment, in layout order, with the stripped non-blank credentials and the built payload. |
| Views.SubmitDelete | views.py:305-337 | Rejected exactly when a field is missing, with that exact list. NoEnvironment exactly when the form is valid and no box is checked. Otherwise one DeleteEnvWorker per selected environment, with the stripped non-blank id and credentials. |
| Views.CredentialsPresent | views.py:168-191 | A create form that passes validation has non-blank id, username and password. |
| Views.DeleteFieldsPresent | views.py:315-325 | A delete form that passes validation has non-blank id, username and password. |
| Views.RunAll | views.py:213-218 | The started workers run independently: trace i is worker i's own run against its environment's network. |
| Views.RunsAttributed | views.py:213-218 | Each started worker's trace opens with its token event, and all of its events name its own environment. |
| Views.EveryBoxConfigured | views.py:101 | Every checkbox environment is in the registry, so a started worker never meets the unknown-environment error. |
| Views.CreateRunPostsPayload | workers.py:115-129 | Once a create worker holds a token, the body it POSTs is the JSON encoding of the feature_payload it was given, and that body decodes back to the same payload. |
| Hosts.HostsPath | utils.py:12-18 | The path differs from `/etc/hosts` exactly on Windows. |
| Hosts.SplitLines | utils.py:21 | `splitlines()` gives lines without line boundaries, and no lines exactly for empty text. |
| Hosts.LinesContain | utils.py:20-22 | For an entry that is non-empty and has no line boundary, some line contains it exactly when the whole text does. |
| Hosts.UpdateHosts | utils.py:10-29 | The update works on the path of the given system. An unreadable file gives ReadFailed. A file mentioning the entry gives AlreadyPresent. Otherwise `"\n" + entry + "\n"` is appended (Added), or the outcome is WriteFailed when the append fails. The file changes only when the outcome is Added. |
| Hosts.AppendLine | utils.py:25-26 | Appending a line between two newlines keeps the old text as a prefix and adds an occurrence of the line. |
| Hosts.UpdateOnlyAppends | utils.py:25-26 | The old text is always a prefix of the new one. Afterwards the file mentions the entry unless the append failed. |
| Hosts.UpdateIdempotent | utils.py:22-24 | A second update after a successful one finds the entry and changes nothing. |
| Hosts.HostsPaths | utils.py:13-18 | macOS and Linux both use `/etc/hosts`, and Windows uses `C:\Windows\System32\drivers\etc\hosts`. |
| Hosts.SplitLinesExamples | utils.py:21 | A final newline yields no trailing empty line, and `\r\n` is one boundary. |

## Left out

- Qt widgets, signals, `QThread` scheduling and `QMessageBox` are left out. The three submit outcomes are values, and the events are values tagged by environment and kind instead of Russian texts.
- Concurrency between workers is not modelled. Each worker's run is a pure function of its own network oracle, and nothing is shared between runs.
- The `requests` library, TLS, `verify=False`, timeouts and the HTTP wire format are left out. The network oracle answers either with a reply (status, text, parsed JSON or none) or with a transport failure.
- JSON parsing of a reply is part of the oracle's answer. Floating-point JSON numbers are left out, and numbers are integers.
- `main.py` (application start-up and window creation) is not part of this model. `update_hosts` is modelled on its own, with the OS name, the file's contents and the append's success as parameters.
- Hosts.UpdateHosts: the file is the text as the program reads and writes it. Newline translation is not modelled: on Windows the written `"\n"` is stored as `"\r\n"`, and on reading it becomes `"\n"` again. A UTF-8 decode failure counts as an unreadable file, and a partial write is treated as a failed append that leaves the file unchanged.
- Printing to the console in `update_hosts` is left out.
- The combo boxes' choice lists (`True`/`False`, the team names, `ALL`/`SERVICE`) are left out. Their current texts are form inputs.
- Text.Lower: only ASCII letters are lower-cased, whereas Python's `lower()` also folds non-ASCII letters. This is enough to decide whether a text equals "true".
- Workers.TokenAndNotify: an `access_token` that is not a string is reported as a TokenNotText failure. Python would slice a non-empty JSON array token and go on using it, while every other non-string value (number, boolean, object) raises as modelled.
- No tab of the client constructs `ActivityUpdateWorker`, so it is modelled from its run alone, with its items as a parameter. Each item's second element is a Python boolean or a string, which is enough for `str()`.

=== FILE: config.dfy ===
/** The environment registry: for each deployment environment, the OAuth token endpoint
    and the base URL of the feature API. A compiled-in constant that nothing modifies. */
module Config {
  import opened Results
  import opened Text

  /** The two URLs configured for one environment. */
  datatype EnvUrls = EnvUrls(token: string, feature: string)

  /** The path every token endpoint URL ends with (the realm's OpenID Connect token endpoint). */
  const TokenPath := "/auth/realms/feature-toggle-management-tf/protocol/openid-connect/token"

  /** The path every feature base URL ends with. */
  const FeaturePath := "/api/v1/feature"

  /** The entry for an environment whose identity server is `kcHost` and whose feature
      service is `featureHost`; the configured URLs are exactly these concatenations. */
  function Entry(kcHost: string, featureHost: string): EnvUrls
  {
    EnvUrls(kcHost + TokenPath, featureHost + FeaturePath)
  }

  /** ENV_CONFIG: the five environments and their endpoints. */
  const EnvConfig: map<string, EnvUrls> := map[
    "dev" := Entry("https://kc-dev-omni.x5.ru",
                   "https://feature-toggle-management-pp-dev.k8s.5post-stage-2.salt.x5.ru"),
    "test" := Entry("https://kc-test-omni.x5.ru",
                    "https://feature-toggle-management-pp-test.k8s.5post-stage-2.salt.x5.ru"),
    "preprod" := Entry("https://kc-preprod-omni.x5.ru",
                       "https://feature-toggle-management.k8s.5post-stage-2.salt.x5.ru"),
    "stage" := Entry("https://kc-stage-omni.x5.ru",
                     "https://feature-toggle-management.k8s.5post-stage-1.salt.x5.ru"),
    "prod" := Entry("https://kc-omni.x5.ru",
                    "https://feature-toggle-management-pp-prod.k8s.5post-stage-2.salt.x5.ru")
  ]

  /** A configured entry: both URLs are present, and the feature base ends in the
      feature path with no trailing slash, so `base + "/" + id` has one separator. */
  predicate WellFormed(u: EnvUrls)
  {
    && u.token != ""
    && u.feature != ""
    && EndsWith(u.feature, FeaturePath)
    && u.feature[|u.feature| - 1] != '/'
  }

  /** `ENV_CONFIG.get(key)`: the entry for a configured key, nothing for any other key. */
  function Lookup(key: string): (r: Option<EnvUrls>)
    ensures r.Some? <==> key in {"dev", "test", "preprod", "stage", "prod"}
    ensures r.Some? ==> WellFormed(r.value)
    ensures r.Some? ==> key in EnvConfig && r.value == EnvConfig[key]
  {
    RegistryKeys();
    RegistryWellFormed();
    if key in EnvConfig then
      Some(EnvConfig[key])
    else None
  }

  /** Every entry built by Entry is well formed, whatever the hosts. */
  lemma EntryWellFormed(kcHost: string, featureHost: string)
    ensures WellFormed(Entry(kcHost, featureHost))
  {
    var f := featureHost + FeaturePath;
    assert f[|f| - |FeaturePath|..] == FeaturePath;
    assert f[|f| - 1] == FeaturePath[|FeaturePath| - 1];
    assert (kcHost + TokenPath)[|kcHost|] == TokenPath[0];
  }

  /** The registry has exactly the five environment keys. */
  lemma RegistryKeys()
    ensures forall k :: k in EnvConfig <==> k in {"dev", "test", "preprod", "stage", "prod"}
  {
  }

  /** Every entry of the registry is well formed. */
  lemma RegistryWellFormed()
    ensures forall k :: k in EnvConfig ==> WellFormed(EnvConfig[k])
  {
    forall kcHost, featureHost ensures WellFormed(Entry(kcHost, featureHost)) {
      EntryWellFormed(kcHost, featureHost);
    }
  }
}

=== FILE: env_boxes.dfy ===
/** The environment checkboxes of both tabs: the ALL box kept in step with the five
    individual boxes, and the list of selected environments in layout order. */
module EnvSelection {

  /** The environments that have a checkbox, in the order both tabs lay them out. */
  datatype Env = Dev | Test | Preprod | Stage | Prod

  /** The registry key of an environment, which its worker receives. */
  function Key(e: Env): string
  {
    match e
    case Dev => "dev"
    case Test => "test"
    case Preprod => "preprod"
    case Stage => "stage"
    case Prod => "prod"
  }

  /** The position of an environment's checkbox. */
  function EnvRank(e: Env): nat
  {
    match e
    case Dev => 0
    case Test => 1
    case Preprod => 2
    case Stage => 3
    case Prod => 4
  }

  /** The layout order of the five boxes. */
  const EnvOrder: seq<Env> := [Dev, Test, Preprod, Stage, Prod]

  /** The ALL checkbox and the five individual ones. */
  datatype EnvBoxes = EnvBoxes(all: bool, dev: bool, test: bool, preprod: bool, stage: bool, prod: bool)

  /** The state of the individual box of `e`. */
  function Checked(b: EnvBoxes, e: Env): bool
  {
    match e
    case Dev => b.dev
    case Test => b.test
    case Preprod => b.preprod
    case Stage => b.stage
    case Prod => b.prod
  }

  /** Sets the individual box of `e`; no other box changes. */
  function SetChecked(b: EnvBoxes, e: Env, value: bool): (r: EnvBoxes)
    ensures Checked(r, e) == value && r.all == b.all
    ensures forall x :: x != e ==> Checked(r, x) == Checked(b, x)
  {
    match e
    case Dev => b.(dev := value)
    case Test => b.(test := value)
    case Preprod => b.(preprod := value)
    case Stage => b.(stage := value)
    case Prod => b.(prod := value)
  }

  /** Every individual box is checked. */
  predicate AllIndividualChecked(b: EnvBoxes)
  {
    forall e :: Checked(b, e)
  }

  /** on_all_env_changed: every individual box takes the state of ALL; ALL itself is kept. */
  function OnAllEnvChanged(b: EnvBoxes): (r: EnvBoxes)
    ensures r.all == b.all
    ensures forall e :: Checked(r, e) == b.all
  {
    EnvBoxes(b.all, b.all, b.all, b.all, b.all, b.all)
  }

  /** individual_env_changed: ALL becomes the conjunction of the five boxes, which are kept. */
  function IndividualEnvChanged(b: EnvBoxes): (r: EnvBoxes)
    ensures forall e :: Checked(r, e) == Checked(b, e)
    ensures r.all <==> AllIndividualChecked(b)
  {
    assert AllIndividualChecked(b) <== b.dev && b.test && b.preprod && b.stage && b.prod;
    assert !b.dev || !b.test || !b.preprod || !b.stage || !b.prod ==> !AllIndividualChecked(b) by {
      if !b.dev { assert !Checked(b, Dev); }
      else if !b.test { assert !Checked(b, Test); }
      else if !b.preprod { assert !Checked(b, Preprod); }
      else if !b.stage { assert !Checked(b, Stage); }
      else if !b.prod { assert !Checked(b, Prod); }
    }
    b.(all := b.dev && b.test && b.preprod && b.stage && b.prod)
  }

  /** The boxes of a freshly built tab: nothing checked. */
  const InitialBoxes := EnvBoxes(false, false, false, false, false, false)

  /** The user clicks ALL: it toggles, then its handler runs (the other boxes' signals
      are blocked while it sets them). */
  function ClickAll(b: EnvBoxes): EnvBoxes
  {
    OnAllEnvChanged(b.(all := !b.all))
  }

  /** The user clicks the box of `e`: it toggles, then the individual handler runs (the ALL
      box's signal is blocked while it is set). */
  function ClickEnv(b: EnvBoxes, e: Env): EnvBoxes
  {
    IndividualEnvChanged(SetChecked(b, e, !Checked(b, e)))
  }

  /** ALL shows exactly whether all five boxes are checked. */
  predicate Synced(b: EnvBoxes)
  {
    b.all <==> AllIndividualChecked(b)
  }

  /** Environments listed in strictly increasing layout position. */
  predicate InLayoutOrder(envs: seq<Env>)
  {
    forall i, j :: 0 <= i < j < |envs| ==> EnvRank(envs[i]) < EnvRank(envs[j])
  }

  /** The environments of `envs` whose box is checked, in the order of `envs`. */
  function CheckedAmong(envs: seq<Env>, b: EnvBoxes): (r: seq<Env>)
    ensures forall e :: e in r <==> e in envs && Checked(b, e)
  {
    if envs == [] then []
    else if Checked(b, envs[0]) then [envs[0]] + CheckedAmong(envs[1..], b)
    else CheckedAmong(envs[1..], b)
  }

  /** Filtering keeps the layout order. */
  lemma {:induction false} CheckedAmongInOrder(envs: seq<Env>, b: EnvBoxes)
    requires InLayoutOrder(envs)
    ensures InLayoutOrder(CheckedAmong(envs, b))
  {
    if envs != [] {
      var rest := CheckedAmong(envs[1..], b);
      assert InLayoutOrder(envs[1..]);
      CheckedAmongInOrder(envs[1..], b);
      forall e | e in rest ensures EnvRank(envs[0]) < EnvRank(e) {
        var k :| 0 <= k < |envs[1..]| && envs[1..][k] == e;
        assert envs[k + 1] == e;
      }
    }
  }

  /** The layout lists every environment once, in rank order. */
  lemma EnvOrderComplete()
    ensures forall e :: e in EnvOrder
    ensures InLayoutOrder(EnvOrder)
  {
    forall e ensures e in EnvOrder {
      assert EnvOrder[EnvRank(e)] == e;
    }
  }

  /** The checked environments, in layout order (the list comprehension over the boxes). */
  function SelectedEnvs(b: EnvBoxes): (r: seq<Env>)
    ensures forall e :: e in r <==> Checked(b, e)
    ensures InLayoutOrder(r)
  {
    EnvOrderComplete();
    CheckedAmongInOrder(EnvOrder, b);
    CheckedAmong(EnvOrder, b)
  }

  /** No environment is selected exactly when no box is checked. */
  lemma NoneSelected(b: EnvBoxes)
    ensures SelectedEnvs(b) == [] <==> forall e :: !Checked(b, e)
  {
    if SelectedEnvs(b) != [] {
      assert Checked(b, SelectedEnvs(b)[0]);
    }
  }

  /** After a click on ALL, the five boxes all show the new state of ALL and the boxes are
      in step, whatever they showed before. */
  lemma ClickAllSyncs(b: EnvBoxes)
    ensures ClickAll(b).all == !b.all
    ensures forall e :: Checked(ClickAll(b), e) == !b.all
    ensures Synced(ClickAll(b))
  {
    if b.all {
      assert !Checked(ClickAll(b), Dev);
    }
  }

  /** A click on one box toggles that box only, and ALL ends up in step with the five. */
  lemma ClickEnvSyncs(b: EnvBoxes, e: Env)
    ensures Checked(ClickEnv(b, e), e) == !Checked(b, e)
    ensures forall x :: x != e ==> Checked(ClickEnv(b, e), x) == Checked(b, x)
    ensures Synced(ClickEnv(b, e))
  {
  }

  /** A user action on the environment group. */
  datatype Click = ClickAllBox | ClickBox(env: Env)

  /** The boxes after a sequence of clicks. */
  function AfterClicks(b: EnvBoxes, clicks: seq<Click>): EnvBoxes
    decreases |clicks|
  {
    if clicks == [] then b
    else
      var next := match clicks[0]
        case ClickAllBox => ClickAll(b)
        case ClickBox(e) => ClickEnv(b, e);
      AfterClicks(next, clicks[1..])
  }

  /** Whatever the user clicks, starting from any state whose boxes are in step (a fresh
      tab is one), ALL shows exactly whether all five environments are selected. */
  lemma {:induction false} AlwaysSynced(b: EnvBoxes, clicks: seq<Click>)
    requires Synced(b)
    ensures Synced(AfterClicks(b, clicks))
    ensures AfterClicks(b, clicks).all <==> |SelectedEnvs(AfterClicks(b, clicks))| == 5
    decreases |clicks|
  {
    if clicks == [] {
      SelectedAllIffFive(b);
    } else {
      match clicks[0]
      case ClickAllBox => ClickAllSyncs(b); AlwaysSynced(ClickAll(b), clicks[1..]);
      case ClickBox(e) => ClickEnvSyncs(b, e); AlwaysSynced(ClickEnv(b, e), clicks[1..]);
    }
  }

  /** Filtering keeps every environment exactly when all of them are checked. */
  lemma {:induction false} CheckedAmongKeepsAll(envs: seq<Env>, b: EnvBoxes)
    ensures |CheckedAmong(envs, b)| <= |envs|
    ensures |CheckedAmong(envs, b)| == |envs| <==> forall k :: 0 <= k < |envs| ==> Checked(b, envs[k])
    decreases |envs|
  {
    if envs != [] {
      CheckedAmongKeepsAll(envs[1..], b);
      assert forall k :: 1 <= k < |envs| ==> envs[k] == envs[1..][k - 1];
    }
  }

  /** All five environments are selected exactly when every box is checked. */
  lemma SelectedAllIffFive(b: EnvBoxes)
    ensures AllIndividualChecked(b) <==> |SelectedEnvs(b)| == 5
  {
    EnvOrderComplete();
    CheckedAmongKeepsAll(EnvOrder, b);
    if !AllIndividualChecked(b) {
      var e :| !Checked(b, e);
      assert EnvOrder[EnvRank(e)] == e;
    }
  }

  /** A fresh tab has nothing checked, and its boxes are in step. */
  lemma InitialSynced()
    ensures Synced(InitialBoxes)
    ensures SelectedEnvs(InitialBoxes) == []
  {
    NoneSelected(InitialBoxes);
  }
}

=== FILE: form_facts.dfy ===
/** Properties of the create and delete forms that relate several operations: the payload
    round trip, the audience target parse, and which fields validation demands. */
module FormFacts {
  import opened Results
  import opened Text
  import opened Forms

  /** Reading a list of strings back from its JSON array gives the list. */
  lemma {:induction false} JsonStringsRoundTrip(xs: seq<string>)
    ensures JsonStrings(StringsJson(xs)) == Some(xs)
    decreases |xs|
  {
    if xs != [] {
      var items := StringsJson(xs);
      assert items[1..] == StringsJson(xs[1..]);
      JsonStringsRoundTrip(xs[1..]);
      assert [xs[0]] + xs[1..] == xs;
    }
  }

  /** The payload object carries exactly the nine keys and reads back as the payload. */
  lemma PayloadRoundTrip(p: FeaturePayload)
    ensures PayloadJson(p).fields.Keys == PayloadKeys
    ensures DecodePayload(PayloadJson(p)) == Some(p)
  {
    JsonStringsRoundTrip(p.audienceTarget);
  }

  /** Stripped, non-empty pieces survive KeepNonEmpty unchanged. */
  lemma {:induction false} KeepNonEmptyKeepsClean(pieces: seq<string>)
    requires forall i :: 0 <= i < |pieces| ==> pieces[i] != "" && Unpadded(pieces[i])
    ensures KeepNonEmpty(pieces) == pieces
    decreases |pieces|
  {
    if pieces != [] {
      StripUnpadded(pieces[0]);
      KeepNonEmptyKeepsClean(pieces[1..]);
      assert [pieces[0]] + pieces[1..] == pieces;
    }
  }

  /** Pieces that are all whitespace leave nothing. */
  lemma {:induction false} KeepNonEmptyDropsBlanks(pieces: seq<string>)
    requires forall i :: 0 <= i < |pieces| ==> AllSpace(pieces[i])
    ensures KeepNonEmpty(pieces) == []
    decreases |pieces|
  {
    if pieces != [] {
      KeepNonEmptyDropsBlanks(pieces[1..]);
    }
  }

  /** One piece: a blank piece contributes nothing, any other contributes itself stripped. */
  lemma KeepNonEmptyOne(p: string)
    ensures KeepNonEmpty([p]) == (if Blank(p) then [] else [Strip(p)])
  {
    assert [p][1..] == [];
  }

  /** The first piece is handled on its own, before the rest. */
  lemma KeepNonEmptyCons(p: string, rest: seq<string>)
    ensures KeepNonEmpty([p] + rest) == KeepNonEmpty([p]) + KeepNonEmpty(rest)
  {
    assert ([p] + rest)[0] == p;
    assert ([p] + rest)[1..] == rest;
    KeepNonEmptyOne(p);
  }

  /** `x` is the stripped form of some non-blank piece. */
  predicate StrippedPieceOf(x: string, pieces: seq<string>)
  {
    exists j :: 0 <= j < |pieces| && !Blank(pieces[j]) && Strip(pieces[j]) == x
  }

  /** The names kept are exactly the stripped forms of the non-blank pieces. */
  lemma {:induction false} KeepNonEmptyMembers(pieces: seq<string>)
    ensures forall x :: x in KeepNonEmpty(pieces) <==> StrippedPieceOf(x, pieces)
    decreases |pieces|
  {
    if pieces != [] {
      var tail := pieces[1..];
      KeepNonEmptyMembers(tail);
      forall x | x in KeepNonEmpty(pieces)
        ensures exists j :: 0 <= j < |pieces| && !Blank(pieces[j]) && Strip(pieces[j]) == x
      {
        if x in KeepNonEmpty(tail) {
          var j :| 0 <= j < |tail| && !Blank(tail[j]) && Strip(tail[j]) == x;
          assert pieces[j + 1] == tail[j];
        }
      }
      forall x, j | 0 <= j < |pieces| && !Blank(pieces[j]) && Strip(pieces[j]) == x
        ensures x in KeepNonEmpty(pieces)
      {
        if j > 0 {
          assert tail[j - 1] == pieces[j];
        }
      }
    }
  }

  /** The audience target list holds exactly the stripped, non-blank comma-separated pieces
      of the text. */
  lemma AudienceTargetMembers(raw: string)
    ensures forall x :: x in ParseAudienceTarget(raw) <==> StrippedPieceOf(x, Split(raw, ','))
  {
    KeepNonEmptyMembers(Split(raw, ','));
  }

  /** The pieces of "a , b": the padding stays with the names. */
  lemma SplitPadded()
    ensures Split("a , b", ',') == ["a ", " b"]
  {
    assert Join(["a ", " b"], ',') == "a , b";
    SplitJoin(["a ", " b"], ',');
  }

  /** Stripping the two padded pieces. */
  lemma StripPadded()
    ensures Strip("a ") == "a" && Strip(" b") == "b"
  {
    assert LeadingSpaces("a ") == 0;
    assert "a "[..1] == "a";
    assert TrailingSpaces("a ") == 1;
    assert "a "[0..] == "a ";
    assert " b"[1..] == "b";
    assert LeadingSpaces(" b") == 1;
    assert TrailingSpaces("b") == 0;
  }

  /** The two padded pieces of "a , b" come out stripped, in order. */
  lemma KeepPaddedPieces()
    ensures KeepNonEmpty(["a ", " b"]) == ["a", "b"]
  {
    StripPadded();
    KeepNonEmptyOne("a ");
    KeepNonEmptyOne(" b");
    KeepNonEmptyCons("a ", [" b"]);
    assert ["a "] + [" b"] == ["a ", " b"];
  }

  /** Padding around the commas is dropped: "a , b" names the services "a" and "b". */
  lemma PaddedTargetParses()
    ensures ParseAudienceTarget("a , b") == ["a", "b"]
  {
    SplitPadded();
    KeepPaddedPieces();
  }

  /** Joining clean service names with commas and parsing the text gives the names back. */
  lemma AudienceTargetRoundTrip(names: seq<string>)
    requires forall i :: 0 <= i < |names| ==> names[i] != "" && Unpadded(names[i]) && ',' !in names[i]
    ensures ParseAudienceTarget(Join(names, ',')) == names
  {
    if names == [] {
      assert Split("", ',') == [""];
      KeepNonEmptyOne("");
      assert Blank("") by { StripUnpadded(""); }
    } else {
      SplitJoin(names, ',');
      KeepNonEmptyKeepsClean(names);
    }
  }

  /** The text is made of commas and whitespace only. */
  predicate CommasAndSpaces(t: string)
  {
    forall k :: 0 <= k < |t| ==> t[k] == ',' || IsSpace(t[k])
  }

  /** Stripping and splitting such a text leaves only whitespace pieces. */
  lemma CommaPiecesAreSpace(t: string)
    requires CommasAndSpaces(t)
    ensures forall j :: 0 <= j < |Split(Strip(t), ',')| ==> AllSpace(Split(Strip(t), ',')[j])
  {
    var s := Strip(t);
    var pieces := Split(s, ',');
    StripKeepsOnlyOwnChars(t);
    JoinKeepsPartChars(pieces, ',');
    forall j, k | 0 <= j < |pieces| && 0 <= k < |pieces[j]| ensures IsSpace(pieces[j][k]) {
      var c := pieces[j][k];
      assert c in pieces[j];
      assert c in t;
      var m :| 0 <= m < |t| && t[m] == c;
    }
  }

  /** A target text of commas and whitespace parses to no service at all. */
  lemma CommaOnlyParsesEmpty(t: string)
    requires CommasAndSpaces(t)
    ensures ParseAudienceTarget(Strip(t)) == []
  {
    var pieces := Split(Strip(t), ',');
    CommaPiecesAreSpace(t);
    KeepNonEmptyDropsBlanks(pieces);
  }

  /** A text holding a comma is never blank. */
  lemma CommaTextNotBlank(t: string)
    requires ',' in t
    ensures !Blank(t)
  {
    var m :| 0 <= m < |t| && t[m] == ',';
    assert !IsSpace(t[m]);
  }

  /** A target text of commas and whitespace yields an empty target list, and when it holds
      a comma (", ,", say) it passes the Audience Target check all the same. */
  lemma CommaOnlyTargetPassesEmpty(form: CreateForm)
    ensures CommasAndSpaces(form.audienceTarget) ==> BuildPayload(form).audienceTarget == []
    ensures CommasAndSpaces(form.audienceTarget) && ',' in form.audienceTarget ==>
      AudienceTarget !in MissingCreateFields(form)
  {
    if CommasAndSpaces(form.audienceTarget) {
      CommaOnlyParsesEmpty(form.audienceTarget);
    }
    if ',' in form.audienceTarget {
      CommaTextNotBlank(form.audienceTarget);
    }
  }

  /** The payload's flags are true exactly when their combo box text reads "true" in any
      letter case; the team and the audience type are the combo box texts as they are. */
  lemma PayloadFlags(form: CreateForm)
    ensures BuildPayload(form).enabled <==> Lower(form.enabled) == "true"
    ensures BuildPayload(form).isScheduledForRemoval <==> Lower(form.scheduledForRemoval) == "true"
    ensures BuildPayload(form).team == form.team && BuildPayload(form).audienceType == form.audienceType
  {
  }

  /** The payload's texts are the form's texts with surrounding whitespace removed, and the
      target list is the parse of the stripped target text. */
  lemma PayloadTextsTrimmed(form: CreateForm)
    ensures var p := BuildPayload(form);
      && Trimmed(form.id, p.id) && Unpadded(p.id)
      && Trimmed(form.description, p.description) && Unpadded(p.description)
      && Trimmed(form.taskId, p.taskId) && Unpadded(p.taskId)
      && Trimmed(form.removalFeatureTaskId, p.removalFeatureTaskId) && Unpadded(p.removalFeatureTaskId)
      && Trimmed(form.plannedRemovalDate, p.plannedRemovalDate) && Unpadded(p.plannedRemovalDate)
      && p.audienceTarget == ParseAudienceTarget(Strip(form.audienceTarget))
  {
    StripTrimsSpaces(form.id);
    StripTrimsSpaces(form.description);
    StripTrimsSpaces(form.taskId);
    StripTrimsSpaces(form.removalFeatureTaskId);
    StripTrimsSpaces(form.plannedRemovalDate);
  }

  /** A form that passes validation has a non-blank id, description and task id. */
  lemma ValidFormFilled(form: CreateForm)
    ensures MissingCreateFields(form) == [] ==>
      !Blank(form.id) && !Blank(form.description) && !Blank(form.taskId)
  {
    var missing := MissingCreateFields(form);
    assert Id in missing <==> CreateFieldMissing(form, Id);
    assert Description in missing <==> CreateFieldMissing(form, Description);
    assert TaskId in missing <==> CreateFieldMissing(form, TaskId);
  }

  /** A form that passes validation with its removal flag reading true has non-blank
      removal fields. */
  lemma ValidScheduledFormFilled(form: CreateForm)
    ensures MissingCreateFields(form) == [] && ParseFlag(form.scheduledForRemoval) ==>
      !Blank(form.removalFeatureTaskId) && !Blank(form.plannedRemovalDate)
  {
    RemovalFieldsRequiredIffScheduled(form);
  }

  /** A form that passes validation yields a payload with a non-empty id, description and
      task id, and, when scheduled for removal, non-empty removal fields. */
  lemma ValidPayloadFilled(form: CreateForm)
    ensures var p := BuildPayload(form);
      MissingCreateFields(form) == [] ==>
        && p.id != "" && p.description != "" && p.taskId != ""
        && (p.isScheduledForRemoval ==> p.removalFeatureTaskId != "" && p.plannedRemovalDate != "")
  {
    ValidFormFilled(form);
    ValidScheduledFormFilled(form);
  }

  /** The removal fields are demanded exactly when the feature is scheduled for removal:
      each is reported missing iff the flag reads true and the field is blank. */
  lemma RemovalFieldsRequiredIffScheduled(form: CreateForm)
    ensures PlannedRemovalDate in MissingCreateFields(form)
        <==> ParseFlag(form.scheduledForRemoval) && Blank(form.plannedRemovalDate)
    ensures RemovalFeatureTaskId in MissingCreateFields(form)
        <==> ParseFlag(form.scheduledForRemoval) && Blank(form.removalFeatureTaskId)
  {
  }

  /** The other six fields are demanded whatever the removal flag says. */
  lemma OtherFieldsAlwaysRequired(form: CreateForm, f: Field)
    requires f != PlannedRemovalDate && f != RemovalFeatureTaskId
    ensures f in MissingCreateFields(form) <==> Blank(FieldText(form, f))
  {
  }

  /** The combo box texts: "true" in any letter case is true; anything else is false. */
  lemma ParseFlagExamples()
    ensures ParseFlag("true") && ParseFlag("True") && ParseFlag("TRUE")
    ensures !ParseFlag("false") && !ParseFlag(" true") && !ParseFlag("")
  {
    assert Lower("True") == "true";
    assert Lower("TRUE") == "true";
    assert Lower("false") != "true" by { assert Lower("false")[0] == 'f'; }
    assert |Lower(" true")| == 5;
  }

  /** The delete tab reports exactly the blank ones of ID, Username and Password. */
  lemma DeleteFieldsMissingIffBlank(form: DeleteForm)
    ensures Id in MissingDeleteFields(form) <==> Blank(form.id)
    ensures Username in MissingDeleteFields(form) <==> Blank(form.username)
    ensures Password in MissingDeleteFields(form) <==> Blank(form.password)
    ensures forall f :: f in MissingDeleteFields(form) ==> f == Id || f == Username || f == Password
  {
  }
}

=== FILE: forms.dfy ===
/** Form validation and payload building of the create and delete tabs: whitespace-stripped
    field texts in, an ordered list of missing fields or a feature payload out. */
module Forms {
  import opened Results
  import opened Json
  import opened Text

  /** A blank field: Python's `not text.strip()`. */
  predicate Blank(text: string)
  {
    Strip(text) == ""
  }

  /** A combo box flag: true exactly when its text lower-cases to "true". */
  function ParseFlag(text: string): (r: bool)
    ensures r <==> |text| == 4 && forall i :: 0 <= i < 4 ==> LowerChar(text[i]) == "true"[i]
  {
    Lower(text) == "true"
  }

  /** The required fields, in the order validation reports them. */
  datatype Field =
    | Id | Description | AudienceTarget | TaskId | Username | Password
    | PlannedRemovalDate | RemovalFeatureTaskId

  /** The position of a field in the validation order. */
  function FieldRank(f: Field): nat
  {
    match f
    case Id => 0
    case Description => 1
    case AudienceTarget => 2
    case TaskId => 3
    case Username => 4
    case Password => 5
    case PlannedRemovalDate => 6
    case RemovalFeatureTaskId => 7
  }

  /** The raw widget texts of the create tab. */
  datatype CreateForm = CreateForm(
    id: string, description: string, enabled: string, team: string,
    audienceType: string, audienceTarget: string, taskId: string,
    removalFeatureTaskId: string, scheduledForRemoval: string,
    plannedRemovalDate: string, username: string, password: string)

  /** The raw text of the widget behind a required field of the create tab. */
  function FieldText(form: CreateForm, f: Field): string
  {
    match f
    case Id => form.id
    case Description => form.description
    case AudienceTarget => form.audienceTarget
    case TaskId => form.taskId
    case Username => form.username
    case Password => form.password
    case PlannedRemovalDate => form.plannedRemovalDate
    case RemovalFeatureTaskId => form.removalFeatureTaskId
  }

  /** A field must be filled in: the removal fields only when the feature is scheduled
      for removal, every other field always. */
  predicate Required(f: Field, scheduled: bool)
  {
    (f == PlannedRemovalDate || f == RemovalFeatureTaskId) ==> scheduled
  }

  /** The fields are listed in validation order. */
  predicate Ascending(fields: seq<Field>)
  {
    forall i, j :: 0 <= i < j < |fields| ==> FieldRank(fields[i]) < FieldRank(fields[j])
  }

  /** The fields of `fields` that `missing` flags, in the order of `fields`. */
  function MissingAmong(fields: seq<Field>, missing: set<Field>): (r: seq<Field>)
    ensures forall f :: f in r <==> f in fields && f in missing
  {
    if fields == [] then []
    else if fields[0] in missing then [fields[0]] + MissingAmong(fields[1..], missing)
    else MissingAmong(fields[1..], missing)
  }

  /** Picking out the missing fields keeps the validation order. */
  lemma {:induction false} MissingAmongAscending(fields: seq<Field>, missing: set<Field>)
    requires Ascending(fields)
    ensures Ascending(MissingAmong(fields, missing))
  {
    if fields != [] {
      var rest := MissingAmong(fields[1..], missing);
      assert Ascending(fields[1..]);
      MissingAmongAscending(fields[1..], missing);
      forall f | f in rest ensures FieldRank(fields[0]) < FieldRank(f) {
        var k :| 0 <= k < |fields[1..]| && fields[1..][k] == f;
        assert fields[k + 1] == f;
      }
    }
  }

  /** The create tab checks its fields in this order. */
  const CreateFieldOrder: seq<Field> :=
    [Id, Description, AudienceTarget, TaskId, Username, Password, PlannedRemovalDate, RemovalFeatureTaskId]

  /** A field of the create tab that must be filled in and is blank. */
  predicate CreateFieldMissing(form: CreateForm, f: Field)
  {
    Required(f, ParseFlag(form.scheduledForRemoval)) && Blank(FieldText(form, f))
  }

  /** The create tab's validation order lists every field once, in rank order. */
  lemma CreateFieldOrderComplete()
    ensures Ascending(CreateFieldOrder)
    ensures forall f :: f in CreateFieldOrder
  {
    forall f ensures f in CreateFieldOrder { assert CreateFieldOrder[FieldRank(f)] == f; }
  }

  /** The create tab's missing_fields: exactly the required fields left blank, in
      validation order. */
  function MissingCreateFields(form: CreateForm): (r: seq<Field>)
    ensures forall f :: f in r <==> CreateFieldMissing(form, f)
    ensures Ascending(r)
  {
    CreateFieldOrderComplete();
    var missing := set f | f in CreateFieldOrder && CreateFieldMissing(form, f);
    MissingAmongAscending(CreateFieldOrder, missing);
    MissingAmong(CreateFieldOrder, missing)
  }

  /** Strips every piece and drops those left empty. */
  function KeepNonEmpty(pieces: seq<string>): (r: seq<string>)
    ensures |r| <= |pieces|
    ensures forall i :: 0 <= i < |r| ==> r[i] != "" && Unpadded(r[i])
    ensures (forall j :: 0 <= j < |pieces| ==> ',' !in pieces[j]) ==> forall i :: 0 <= i < |r| ==> ',' !in r[i]
  {
    if pieces == [] then []
    else
      var rest := KeepNonEmpty(pieces[1..]);
      var s := Strip(pieces[0]);
      StripKeepsOnlyOwnChars(pieces[0]);
      if s == "" then rest else [s] + rest
  }

  /** The audience target list: the comma-separated pieces of the (already stripped) text,
      each stripped, empty pieces dropped. */
  function ParseAudienceTarget(raw: string): (r: seq<string>)
    ensures forall i :: 0 <= i < |r| ==> r[i] != "" && Unpadded(r[i]) && ',' !in r[i]
  {
    KeepNonEmpty(Split(raw, ','))
  }

  /** Every character of a stripped string comes from the original. */
  lemma StripKeepsOnlyOwnChars(s: string)
    ensures forall c :: c in Strip(s) ==> c in s
  {
    var i := LeadingSpaces(s);
    var j := |s| - TrailingSpaces(s[i..]);
    var r := Strip(s);
    assert r == s[i..j];
    forall c | c in r ensures c in s {
      var k :| 0 <= k < |r| && r[k] == c;
      assert s[i + k] == c;
    }
  }

  /** The feature_payload dictionary of the create tab. */
  datatype FeaturePayload = FeaturePayload(
    id: string, description: string, enabled: bool, team: string,
    audienceType: string, audienceTarget: seq<string>,
    removalFeatureTaskId: string, isScheduledForRemoval: bool,
    taskId: string, plannedRemovalDate: string)

  /** The payload built from the form: stripped texts, parsed flags, parsed target list;
      the team and audience type are combo box texts taken as they are. */
  function BuildPayload(form: CreateForm): (p: FeaturePayload)
    ensures Unpadded(p.id) && Unpadded(p.description) && Unpadded(p.taskId)
    ensures Unpadded(p.removalFeatureTaskId) && Unpadded(p.plannedRemovalDate)
    ensures forall i :: 0 <= i < |p.audienceTarget| ==>
      p.audienceTarget[i] != "" && Unpadded(p.audienceTarget[i]) && ',' !in p.audienceTarget[i]
    ensures p.team == form.team && p.audienceType == form.audienceType
  {
    FeaturePayload(
      Strip(form.id), Strip(form.description), ParseFlag(form.enabled), form.team,
      form.audienceType, ParseAudienceTarget(Strip(form.audienceTarget)),
      Strip(form.removalFeatureTaskId), ParseFlag(form.scheduledForRemoval),
      Strip(form.taskId), Strip(form.plannedRemovalDate))
  }

  /** A list of strings as a JSON array. */
  function StringsJson(xs: seq<string>): (items: seq<Json>)
    ensures |items| == |xs|
  {
    if xs == [] then [] else [JString(xs[0])] + StringsJson(xs[1..])
  }

  /** The strings of a JSON array whose items are all strings. */
  function JsonStrings(items: seq<Json>): Option<seq<string>>
  {
    if items == [] then Some([])
    else if !items[0].JString? then None
    else match JsonStrings(items[1..])
      case None => None
      case Some(rest) => Some([items[0].str] + rest)
  }

  /** The nine keys of the payload dictionary. */
  const PayloadKeys: set<string> := {
    "id", "description", "enabled", "team", "audience",
    "removalFeatureTaskId", "isScheduledForRemoval", "taskId", "plannedRemovalDate" }

  /** The payload as the JSON object `requests` sends: all nine keys, the removal
      fields present (possibly empty) even when not scheduled. */
  function PayloadJson(p: FeaturePayload): (j: Json)
    ensures j.JObject? && j.fields.Keys == PayloadKeys
  {
    JObject(map[
      "id" := JString(p.id),
      "description" := JString(p.description),
      "enabled" := JBool(p.enabled),
      "team" := JString(p.team),
      "audience" := JObject(map["type" := JString(p.audienceType), "target" := JArray(StringsJson(p.audienceTarget))]),
      "removalFeatureTaskId" := JString(p.removalFeatureTaskId),
      "isScheduledForRemoval" := JBool(p.isScheduledForRemoval),
      "taskId" := JString(p.taskId),
      "plannedRemovalDate" := JString(p.plannedRemovalDate)])
  }

  /** How a receiver reads the payload object back; None when a key is missing or mistyped. */
  function DecodePayload(j: Json): Option<FeaturePayload>
  {
    if !j.JObject? || !(PayloadKeys <= j.fields.Keys) then None
    else
      var m := j.fields;
      var audience := m["audience"];
      if !(m["id"].JString? && m["description"].JString? && m["enabled"].JBool? && m["team"].JString?
           && m["removalFeatureTaskId"].JString? && m["isScheduledForRemoval"].JBool?
           && m["taskId"].JString? && m["plannedRemovalDate"].JString?) then None
      else if !(audience.JObject? && "type" in audience.fields && "target" in audience.fields) then None
      else if !(audience.fields["type"].JString? && audience.fields["target"].JArray?) then None
      else match JsonStrings(audience.fields["target"].items)
        case None => None
        case Some(target) =>
          Some(FeaturePayload(
            m["id"].str, m["description"].str, m["enabled"].flag, m["team"].str,
            audience.fields["type"].str, target, m["removalFeatureTaskId"].str,
            m["isScheduledForRemoval"].flag, m["taskId"].str, m["plannedRemovalDate"].str))
  }

  /** The raw widget texts of the delete tab. */
  datatype DeleteForm = DeleteForm(id: string, username: string, password: string)

  /** The raw text of the widget behind a field of the delete tab; None for the fields the
      delete tab does not have. */
  function DeleteFieldText(form: DeleteForm, f: Field): Option<string>
  {
    match f
    case Id => Some(form.id)
    case Username => Some(form.username)
    case Password => Some(form.password)
    case _ => None
  }

  /** The delete tab checks its fields in this order. */
  const DeleteFieldOrder: seq<Field> := [Id, Username, Password]

  /** A field of the delete tab that is blank. */
  predicate DeleteFieldMissing(form: DeleteForm, f: Field)
  {
    f in DeleteFieldOrder && DeleteFieldText(form, f).Some? && Blank(DeleteFieldText(form, f).value)
  }

  /** The delete tab's missing_fields: those of ID, Username, Password left blank, in that order. */
  function MissingDeleteFields(form: DeleteForm): (r: seq<Field>)
    ensures forall f :: f in r <==> DeleteFieldMissing(form, f)
    ensures Ascending(r)
  {
    assert Ascending(DeleteFieldOrder);
    var missing := set f | f in DeleteFieldOrder && DeleteFieldMissing(form, f);
    MissingAmongAscending(DeleteFieldOrder, missing);
    MissingAmong(DeleteFieldOrder, missing)
  }
}

=== FILE: hosts.dfy ===
/** The hosts-file update run at start-up: the identity server's address is appended to
    the system hosts file unless some line of it already mentions the entry. The operating
    system's name and the file's state are parameters; the file is modelled as its text. */
module Hosts {
  import opened Results
  import opened Text

  /** The line the update makes sure the hosts file mentions. */
  const HostsEntry := "193.232.108.20 kc-omni.x5.ru"

  /** Where the hosts file lives, by `platform.system()`: Windows has its own path, macOS and
      every other system use /etc/hosts. */
  function HostsPath(system: string): (p: string)
    ensures system == "Windows" <==> p != "/etc/hosts"
  {
    if system == "Windows" then "C:\\Windows\\System32\\drivers\\etc\\hosts"
    else if system == "Darwin" then "/etc/hosts"
    else "/etc/hosts"
  }

  /** A line boundary of Python's str.splitlines. */
  predicate IsLineBreak(c: char)
  {
    || c == '\n' || c == '\r' || c == '\U{000B}' || c == '\U{000C}'
    || c == '\U{001C}' || c == '\U{001D}' || c == '\U{001E}' || c == '\U{0085}'
    || c == '\U{2028}' || c == '\U{2029}'
  }

  /** No line boundary inside `s`. */
  predicate NoLineBreak(s: string)
  {
    forall k :: 0 <= k < |s| ==> !IsLineBreak(s[k])
  }

  /** The index of the first line boundary of `s`, or |s| when there is none. */
  function FirstBreak(s: string): (i: nat)
    ensures i <= |s|
    ensures NoLineBreak(s[..i])
    ensures i < |s| ==> IsLineBreak(s[i])
  {
    if s == [] || IsLineBreak(s[0]) then 0
    else
      var j := FirstBreak(s[1..]);
      assert s[..1 + j] == [s[0]] + s[1..][..j];
      1 + j
  }

  /** The width of the boundary that starts at `i`: "\r\n" counts as one boundary. */
  function BreakWidth(s: string, i: nat): (w: nat)
    requires i < |s|
    ensures 1 <= w && i + w <= |s|
  {
    if s[i] == '\r' && i + 1 < |s| && s[i + 1] == '\n' then 2 else 1
  }

  /** Python's `s.splitlines()`: the lines without their boundaries; no trailing empty line
      for a final boundary, and no line at all for the empty string. */
  function SplitLines(s: string): (lines: seq<string>)
    ensures forall k :: 0 <= k < |lines| ==> NoLineBreak(lines[k])
    ensures s == [] <==> lines == []
    decreases |s|
  {
    if s == [] then []
    else
      var i := FirstBreak(s);
      if i == |s| then
        assert s[..i] == s;
        [s]
      else [s[..i]] + SplitLines(s[i + BreakWidth(s, i)..])
  }

  /** `any(entry in line for line in lines)`. */
  predicate AnyLineContains(lines: seq<string>, e: string)
  {
    exists k :: 0 <= k < |lines| && Contains(lines[k], e)
  }

  /** The first line or one of the others contains `e`. */
  lemma AnyLineContainsCons(first: string, tail: seq<string>, e: string)
    ensures AnyLineContains([first] + tail, e) <==> Contains(first, e) || AnyLineContains(tail, e)
  {
    var lines := [first] + tail;
    if AnyLineContains(tail, e) {
      var k :| 0 <= k < |tail| && Contains(tail[k], e);
      assert lines[k + 1] == tail[k];
    }
    if Contains(first, e) {
      assert lines[0] == first;
    }
    if AnyLineContains(lines, e) && !Contains(first, e) {
      var k :| 0 <= k < |lines| && Contains(lines[k], e);
      assert k > 0 && lines[k] == tail[k - 1];
    }
  }

  /** An occurrence in a piece of `s` is an occurrence in `s`. */
  lemma ContainsInPieces(s: string, i: nat, j: nat, e: string)
    requires i <= j <= |s|
    ensures Contains(s[..i], e) ==> Contains(s, e)
    ensures Contains(s[j..], e) ==> Contains(s, e)
  {
    if Contains(s[..i], e) {
      ContainsWithin([], s[..i], s[i..], e);
      assert [] + s[..i] + s[i..] == s;
    }
    if Contains(s[j..], e) {
      ContainsWithin(s[..j], s[j..], [], e);
      assert s[..j] + s[j..] + [] == s;
    }
  }

  /** The characters an occurrence of a break-free `e` covers are not line boundaries. */
  lemma OccurrenceAvoidsBreaks(s: string, e: string, p: nat, k: nat)
    requires OccursAt(s, e, p) && p <= k < p + |e|
    requires NoLineBreak(e)
    ensures !IsLineBreak(s[k])
  {
    assert s[k] == e[k - p];
  }

  /** An entry without line boundaries cannot straddle one: an occurrence in `s` lies wholly
      before or wholly after the boundary s[i..i+w]. */
  lemma ContainsSplitsAtBreak(s: string, i: nat, w: nat, e: string)
    requires i + w <= |s| && 1 <= w
    requires forall k :: i <= k < i + w ==> IsLineBreak(s[k])
    requires e != [] && NoLineBreak(e)
    requires Contains(s, e)
    ensures Contains(s[..i], e) || Contains(s[i + w..], e)
  {
    var p :| 0 <= p <= |s| - |e| && OccursAt(s, e, p);
    if p + |e| <= i {
      assert s[..i][p..p + |e|] == s[p..p + |e|];
      assert OccursAt(s[..i], e, p);
    } else if p >= i + w {
      assert s[i + w..][p - (i + w)..p - (i + w) + |e|] == s[p..p + |e|];
      assert OccursAt(s[i + w..], e, p - (i + w));
    } else {
      OccurrenceAvoidsBreaks(s, e, p, if p <= i then i else p);
      assert false;
    }
  }

  /** Some line of `s` contains `e` exactly when `s` does, for an entry that is not empty and
      has no line boundary: the per-line check of the update is a substring check. */
  lemma {:induction false} LinesContain(s: string, e: string)
    requires e != [] && NoLineBreak(e)
    ensures AnyLineContains(SplitLines(s), e) <==> Contains(s, e)
    decreases |s|
  {
    var lines := SplitLines(s);
    if s == [] {
      assert !Contains(s, e);
    } else {
      var i := FirstBreak(s);
      if i == |s| {
        assert lines == [s] + [];
        AnyLineContainsCons(s, [], e);
      } else {
        var w := BreakWidth(s, i);
        var rest := s[i + w..];
        LinesContain(rest, e);
        ContainsInPieces(s, i, i + w, e);
        if Contains(s, e) {
          ContainsSplitsAtBreak(s, i, w, e);
        }
        AnyLineContainsCons(s[..i], SplitLines(rest), e);
      }
    }
  }

  /** The hosts entry has no line boundary. */
  lemma EntryIsOneLine()
    ensures HostsEntry != [] && NoLineBreak(HostsEntry)
  {
  }

  /** What the update reports. */
  datatype Outcome =
    | AlreadyPresent   // some line mentions the entry: nothing is written
    | Added            // the entry was appended
    | ReadFailed       // the file could not be opened or read (the error is reported)
    | WriteFailed      // appending failed (the error is reported)

  /** The hosts file the update works on, the outcome, and the file's text afterwards
      (None: it could not be read). */
  datatype HostsUpdate = HostsUpdate(path: string, outcome: Outcome, file: Option<string>)

  /** What the append writes: the entry on a line of its own, between two newlines. The
      file is modelled as the text the program reads and writes, before the operating
      system's newline translation. */
  const AppendedText := "\n" + HostsEntry + "\n"

  /** update_hosts: `system` is `platform.system()`, `file` is the text of the hosts file at
      that system's path (None when it cannot be read) and `appendOk` says whether appending
      succeeds. The entry is appended exactly when the file reads and no line of it mentions
      the entry; the file only ever grows at its end. */
  function UpdateHosts(system: string, file: Option<string>, appendOk: bool): (r: HostsUpdate)
    ensures r.path == HostsPath(system)
    ensures r.outcome == ReadFailed <==> file.None?
    ensures r.outcome == AlreadyPresent <==> file.Some? && Contains(file.value, HostsEntry)
    ensures r.outcome == Added <==> file.Some? && !Contains(file.value, HostsEntry) && appendOk
    ensures r.outcome == Added ==> r.file == Some(file.value + AppendedText)
    ensures r.outcome != Added ==> r.file == file
  {
    var path := HostsPath(system);
    match file
    case None => HostsUpdate(path, ReadFailed, None)
    case Some(text) =>
      EntryIsOneLine();
      LinesContain(text, HostsEntry);
      if AnyLineContains(SplitLines(text), HostsEntry) then HostsUpdate(path, AlreadyPresent, file)
      else if appendOk then HostsUpdate(path, Added, Some(text + AppendedText))
      else HostsUpdate(path, WriteFailed, file)
  }

  /** Appending `e` between two newlines keeps the old text as a prefix and adds an
      occurrence of `e`. */
  lemma AppendLine(text: string, e: string)
    ensures StartsWith(text + ("\n" + e + "\n"), text)
    ensures Contains(text + ("\n" + e + "\n"), e)
  {
    var s := text + ("\n" + e + "\n");
    assert s[..|text|] == text;
    assert s[|text| + 1..|text| + 1 + |e|] == e;
    assert OccursAt(s, e, |text| + 1);
  }

  /** The update is append-only: whatever happens, the old text is a prefix of the new one,
      and after it the file mentions the entry unless reading or appending failed. */
  lemma UpdateOnlyAppends(system: string, text: string, appendOk: bool)
    ensures var r := UpdateHosts(system, Some(text), appendOk);
      && r.file.Some? && StartsWith(r.file.value, text)
      && (r.outcome != WriteFailed ==> Contains(r.file.value, HostsEntry))
  {
    AppendLine(text, HostsEntry);
    assert text[..|text|] == text;
  }

  /** Running the update a second time changes nothing: the entry is found. */
  lemma UpdateIdempotent(system: string, text: string, appendOk: bool, appendOk2: bool)
    requires UpdateHosts(system, Some(text), appendOk).outcome != WriteFailed
    ensures var r := UpdateHosts(system, Some(text), appendOk);
      UpdateHosts(system, r.file, appendOk2) == HostsUpdate(HostsPath(system), AlreadyPresent, r.file)
  {
    UpdateOnlyAppends(system, text, appendOk);
  }

  /** macOS and Linux share the Unix path; Windows uses its own. */
  lemma HostsPaths()
    ensures HostsPath("Darwin") == HostsPath("Linux") == "/etc/hosts"
    ensures HostsPath("Windows") == "C:\\Windows\\System32\\drivers\\etc\\hosts"
  {
  }

  /** splitlines drops a final boundary and treats "\r\n" as one boundary. */
  lemma SplitLinesExamples()
    ensures SplitLines("a\n") == ["a"]
    ensures SplitLines("a\r\nb") == ["a", "b"]
  {
    var s1 := "a\n";
    assert FirstBreak(s1[1..]) == 0;
    assert FirstBreak(s1) == 1 && BreakWidth(s1, 1) == 1;
    assert s1[..1] == "a" && s1[2..] == [];
    var s2 := "a\r\nb";
    assert FirstBreak(s2[1..]) == 0;
    assert FirstBreak(s2) == 1 && BreakWidth(s2, 1) == 2;
    assert s2[..1] == "a" && s2[3..] == "b";
    assert FirstBreak("b"[1..]) == 0;
    assert FirstBreak("b") == 1;
    assert "b"[..1] == "b";
  }
}

=== FILE: json.dfy ===
/** The values `json.loads` produces and the payload dictionaries `requests` serializes. */
module Json {

  /** A JSON document as Python sees it after parsing: `null`, booleans, (integral) numbers,
      strings, lists and objects (dictionaries keyed by strings). */
  datatype Json =
    | JNull
    | JBool(flag: bool)
    | JNumber(num: int)
    | JString(str: string)
    | JArray(items: seq<Json>)
    | JObject(fields: map<string, Json>)

  /** Python truthiness of a parsed value: `None`, `False`, `0`, `""`, `[]` and `{}` are falsy. */
  predicate Truthy(j: Json)
  {
    match j
    case JNull => false
    case JBool(b) => b
    case JNumber(n) => n != 0
    case JString(s) => s != ""
    case JArray(a) => a != []
    case JObject(m) => m != map[]
  }
}

=== FILE: results.dfy ===
/** Failure-carrying values used in place of Python's `None` returns and raised exceptions. */
module Results {

  /** A value that may be absent, as `dict.get` or a function returning `None` gives it. */
  datatype Option<+T> = None | Some(value: T)

  /** The outcome of a step that either produces a value or raises an error. */
  datatype Result<+T, +E> = Success(value: T) | Failure(error: E)
}

=== FILE: text.dfy ===
/** The Python string operations the client relies on: `str.strip()`, `str.split(sep)`,
    `str.splitlines()`, the `in` substring test and ASCII lower-casing. */
module Text {

  /** Python's `str.isspace()` for one character: the Unicode whitespace set
      (tab to carriage return, the four information separators, space, NEL, NBSP,
      and the Unicode space and line/paragraph separators). */
  predicate IsSpace(c: char)
  {
    || c == ' '
    || '\U{0009}' <= c <= '\U{000D}'
    || '\U{001C}' <= c <= '\U{001F}'
    || c == '\U{0085}'
    || c == '\U{00A0}'
    || c == '\U{1680}'
    || '\U{2000}' <= c <= '\U{200A}'
    || c == '\U{2028}'
    || c == '\U{2029}'
    || c == '\U{202F}'
    || c == '\U{205F}'
    || c == '\U{3000}'
  }

  /** Every character of `s` is whitespace (vacuously true of ""). */
  predicate AllSpace(s: string)
  {
    forall i :: 0 <= i < |s| ==> IsSpace(s[i])
  }

  /** `s` neither starts nor ends with whitespace. */
  predicate Unpadded(s: string)
  {
    s == [] || (!IsSpace(s[0]) && !IsSpace(s[|s| - 1]))
  }

  /** The number of whitespace characters `s` starts with. */
  function LeadingSpaces(s: string): (n: nat)
    ensures n <= |s|
    ensures forall k :: 0 <= k < n ==> IsSpace(s[k])
    ensures n == |s| || !IsSpace(s[n])
  {
    if s != [] && IsSpace(s[0]) then 1 + LeadingSpaces(s[1..]) else 0
  }

  /** The number of whitespace characters `s` ends with. */
  function TrailingSpaces(s: string): (n: nat)
    ensures n <= |s|
    ensures forall k :: |s| - n <= k < |s| ==> IsSpace(s[k])
    ensures n == |s| || !IsSpace(s[|s| - 1 - n])
  {
    if s != [] && IsSpace(s[|s| - 1]) then 1 + TrailingSpaces(s[..|s| - 1]) else 0
  }

  /** Python's `s.strip()`: what is left after removing whitespace at both ends. */
  function Strip(s: string): (r: string)
    ensures Unpadded(r)
    ensures |r| <= |s|
    ensures r == [] <==> AllSpace(s)
  {
    var i := LeadingSpaces(s);
    var j := |s| - TrailingSpaces(s[i..]);
    s[i..j]
  }

  /** `r` is `s` with whitespace removed at the ends only: a slice of `s` with nothing but
      whitespace before and after it. */
  predicate Trimmed(s: string, r: string)
  {
    exists i :: 0 <= i <= |s| - |r| && s[i..i + |r|] == r && AllSpace(s[..i]) && AllSpace(s[i + |r|..])
  }

  /** Strip removes whitespace only, and only at the ends. */
  lemma StripTrimsSpaces(s: string)
    ensures Trimmed(s, Strip(s))
  {
    var i := LeadingSpaces(s);
    var j := |s| - TrailingSpaces(s[i..]);
    assert AllSpace(s[j..]) by {
      forall k | 0 <= k < |s| - j ensures IsSpace(s[j..][k]) { assert s[j..][k] == s[i..][k + j - i]; }
    }
    assert AllSpace(s[..i]) by {
      forall k | 0 <= k < i ensures IsSpace(s[..i][k]) { assert s[..i][k] == s[k]; }
    }
    var r := Strip(s);
    assert r == s[i..j] && i + |r| == j;
    assert s[i..i + |r|] == r && AllSpace(s[..i]) && AllSpace(s[i + |r|..]);
  }

  /** Stripping a string without whitespace at its ends leaves it as it is. */
  lemma StripUnpadded(s: string)
    requires Unpadded(s)
    ensures Strip(s) == s
  {
    assert LeadingSpaces(s) == 0;
    assert TrailingSpaces(s[0..]) == 0;
    assert s[0..|s|] == s;
  }

  /** Joins `parts` with `sep` between consecutive parts (Python's `sep.join(parts)`). */
  function Join(parts: seq<string>, sep: char): string
  {
    if parts == [] then ""
    else if |parts| == 1 then parts[0]
    else parts[0] + [sep] + Join(parts[1..], sep)
  }

  /** Python's `s.split(sep)` for a one-character separator: the pieces between the
      separators, always at least one piece, empty pieces kept. */
  function Split(s: string, sep: char): (r: seq<string>)
    ensures |r| >= 1
    ensures forall i :: 0 <= i < |r| ==> sep !in r[i]
    ensures Join(r, sep) == s
    ensures |r| == 1 + |s| - |RemoveChar(s, sep)|
  {
    if s == [] then [""]
    else
      var rest := Split(s[1..], sep);
      if s[0] == sep then
        assert s == [sep] + s[1..];
        [""] + rest
      else
        var r := [[s[0]] + rest[0]] + rest[1..];
        assert r[1..] == rest[1..];
        assert s == [s[0]] + s[1..];
        if |rest| == 1 then r
        else
          assert Join(rest, sep) == rest[0] + [sep] + Join(rest[1..], sep);
          r
  }

  /** `s` without its occurrences of `c`; used to count the separators Split consumes. */
  function RemoveChar(s: string, c: char): string
  {
    if s == [] then [] else (if s[0] == c then [] else [s[0]]) + RemoveChar(s[1..], c)
  }

  /** Splitting a join of separator-free parts gives the parts back. */
  lemma {:induction false} SplitJoin(parts: seq<string>, sep: char)
    requires |parts| >= 1
    requires forall i :: 0 <= i < |parts| ==> sep !in parts[i]
    ensures Split(Join(parts, sep), sep) == parts
    decreases |parts|, |parts[0]|
  {
    var p := parts[0];
    if |parts| == 1 {
      SplitNoSep(p, sep);
    } else if p == [] {
      var tail := parts[1..];
      SplitJoin(tail, sep);
      assert Join(parts, sep) == [sep] + Join(tail, sep);
      assert ([sep] + Join(tail, sep))[1..] == Join(tail, sep);
      assert parts == [""] + tail;
    } else {
      var shorter := [p[1..]] + parts[1..];
      assert shorter[1..] == parts[1..];
      assert p[1..] == shorter[0];
      assert forall i :: 0 < i < |shorter| ==> shorter[i] == parts[i];
      assert sep !in shorter[0] by { assert forall c :: c in p[1..] ==> c in p; }
      SplitJoin(shorter, sep);
      var s := Join(parts, sep);
      assert s == [p[0]] + Join(shorter, sep);
      assert s[0] == p[0] && s[1..] == Join(shorter, sep);
      var rest := Split(s[1..], sep);
      assert rest == shorter;
      assert [p[0]] + p[1..] == p;
    }
  }

  /** Every character of a part appears in the join. */
  lemma {:induction false} JoinKeepsPartChars(parts: seq<string>, sep: char)
    ensures forall i, c :: 0 <= i < |parts| && c in parts[i] ==> c in Join(parts, sep)
    decreases |parts|
  {
    if |parts| > 1 {
      var tail := parts[1..];
      JoinKeepsPartChars(tail, sep);
      assert Join(parts, sep) == parts[0] + [sep] + Join(tail, sep);
      forall i, c | 0 <= i < |parts| && c in parts[i] ensures c in Join(parts, sep) {
        if i > 0 {
          assert tail[i - 1] == parts[i];
        }
      }
    }
  }

  /** A string without the separator splits into itself. */
  lemma {:induction false} SplitNoSep(s: string, sep: char)
    requires sep !in s
    ensures Split(s, sep) == [s]
  {
    if s != [] {
      assert sep !in s[1..] by { assert forall c :: c in s[1..] ==> c in s; }
      SplitNoSep(s[1..], sep);
      assert [s[0]] + s[1..] == s;
    }
  }

  /** `e` occurs in `s` starting at index `i`. */
  predicate OccursAt(s: string, e: string, i: int)
  {
    0 <= i && i + |e| <= |s| && s[i..i + |e|] == e
  }

  /** Python's `e in s` for strings: `e` is a substring of `s`. */
  predicate Contains(s: string, e: string)
  {
    exists i :: 0 <= i <= |s| - |e| && OccursAt(s, e, i)
  }

  /** `e` occurs in `s` once `s` is extended on either side. */
  lemma ContainsWithin(a: string, s: string, b: string, e: string)
    requires Contains(s, e)
    ensures Contains(a + s + b, e)
  {
    var i :| 0 <= i <= |s| - |e| && OccursAt(s, e, i);
    assert (a + s + b)[|a| + i..|a| + i + |e|] == s[i..i + |e|];
    assert OccursAt(a + s + b, e, |a| + i);
  }

  /** `prefix` is an initial segment of `s`. */
  predicate StartsWith(s: string, prefix: string)
  {
    |prefix| <= |s| && s[..|prefix|] == prefix
  }

  /** `suffix` is a final segment of `s`. */
  predicate EndsWith(s: string, suffix: string)
  {
    |suffix| <= |s| && s[|s| - |suffix|..] == suffix
  }

  /** ASCII lower-casing of one character. */
  function LowerChar(c: char): char
  {
    if 'A' <= c <= 'Z' then (c as int + 32) as char else c
  }

  /** `s.lower()` restricted to ASCII letters; other characters are kept as they are. */
  function Lower(s: string): (r: string)
    ensures |r| == |s|
    ensures forall i :: 0 <= i < |s| ==> r[i] == LowerChar(s[i])
  {
    if s == [] then [] else [LowerChar(s[0])] + Lower(s[1..])
  }
}

=== FILE: views.dfy ===
/** The submit buttons of both tabs: validation first, then the environment check, then one
    worker per selected environment; and the independent runs of the started workers. */
module Views {
  import opened Results
  import opened Text
  import opened Workers
  import opened EnvSelection
  import opened Forms
  import Config
  import FormFacts

  /** What pressing the submit button leads to. */
  datatype Submission =
    | Rejected(missing: seq<Field>)   // the warning listing the missing fields
    | NoEnvironment                   // the warning asking for an environment
    | Started(workers: seq<Worker>)   // one worker started per selected environment

  /** One worker per environment, all with the same credentials and job; every checkbox
      environment is configured, so each worker names a registry key. */
  function WorkersFor(envs: seq<Env>, username: string, password: string, job: Job): (ws: seq<Worker>)
    ensures |ws| == |envs|
    ensures forall i :: 0 <= i < |ws| ==> ws[i] == Worker(Key(envs[i]), username, password, job)
    ensures forall i :: 0 <= i < |ws| ==> ws[i].env in Config.EnvConfig
  {
    if envs == [] then []
    else
      EveryBoxConfigured(envs[0]);
      [Worker(Key(envs[0]), username, password, job)] + WorkersFor(envs[1..], username, password, job)
  }

  /** A create form that passes validation has a non-blank id and credentials. */
  lemma CredentialsPresent(form: CreateForm)
    requires MissingCreateFields(form) == []
    ensures Strip(form.id) != "" && Strip(form.username) != "" && Strip(form.password) != ""
  {
    assert Id !in MissingCreateFields(form);
    assert Username !in MissingCreateFields(form);
    assert Password !in MissingCreateFields(form);
  }

  /** CreateTab.submit_action: validation first, then the environment check, then one
      EnvWorker per selected environment, in layout order, sharing credentials and payload. */
  function SubmitCreate(form: CreateForm, boxes: EnvBoxes): (r: Submission)
    ensures r.Rejected? <==> MissingCreateFields(form) != []
    ensures r.Rejected? ==> r.missing == MissingCreateFields(form)
    ensures r.NoEnvironment? <==> MissingCreateFields(form) == [] && forall e :: !Checked(boxes, e)
    ensures r.Started? ==>
      && SelectedEnvs(boxes) != []
      && Strip(form.username) != "" && Strip(form.password) != ""
      && r.workers == WorkersFor(SelectedEnvs(boxes), Strip(form.username), Strip(form.password),
                                 CreateJob(BuildPayload(form)))
  {
    var missing := MissingCreateFields(form);
    if missing != [] then Rejected(missing)
    else
      var payload := BuildPayload(form);
      var envs := SelectedEnvs(boxes);
      NoneSelected(boxes);
      if envs == [] then NoEnvironment
      else
        CredentialsPresent(form);
        Started(WorkersFor(envs, Strip(form.username), Strip(form.password), CreateJob(payload)))
  }

  /** A delete form that passes validation has a non-blank id and credentials. */
  lemma DeleteFieldsPresent(form: DeleteForm)
    requires MissingDeleteFields(form) == []
    ensures Strip(form.id) != "" && Strip(form.username) != "" && Strip(form.password) != ""
  {
    assert Id !in MissingDeleteFields(form);
    assert Username !in MissingDeleteFields(form);
    assert Password !in MissingDeleteFields(form);
  }

  /** DeleteTab.submit_action: validation, the environment check, then one DeleteEnvWorker
      per selected environment for the stripped id. */
  function SubmitDelete(form: DeleteForm, boxes: EnvBoxes): (r: Submission)
    ensures r.Rejected? <==> MissingDeleteFields(form) != []
    ensures r.Rejected? ==> r.missing == MissingDeleteFields(form)
    ensures r.NoEnvironment? <==> MissingDeleteFields(form) == [] && forall e :: !Checked(boxes, e)
    ensures r.Started? ==>
      && SelectedEnvs(boxes) != []
      && Strip(form.id) != "" && Strip(form.username) != "" && Strip(form.password) != ""
      && r.workers == WorkersFor(SelectedEnvs(boxes), Strip(form.username), Strip(form.password),
                                 DeleteJob(Strip(form.id)))
  {
    var missing := MissingDeleteFields(form);
    if missing != [] then Rejected(missing)
    else
      var envs := SelectedEnvs(boxes);
      NoneSelected(boxes);
      if envs == [] then NoEnvironment
      else
        DeleteFieldsPresent(form);
        Started(WorkersFor(envs, Strip(form.username), Strip(form.password), DeleteJob(Strip(form.id))))
  }

  /** The started workers each run on their own: worker i's trace is its run against its own
      environment's network. */
  function RunAll(workers: seq<Worker>, nets: string -> Network): (traces: seq<Trace>)
    ensures |traces| == |workers|
    ensures forall i :: 0 <= i < |workers| ==> traces[i] == Run(workers[i], nets(workers[i].env))
  {
    if workers == [] then []
    else [Run(workers[0], nets(workers[0].env))] + RunAll(workers[1..], nets)
  }

  /** Each started worker reports on its own: its trace opens with its token event and
      every event it emits names its own environment. */
  lemma RunsAttributed(workers: seq<Worker>, nets: string -> Network)
    ensures var traces := RunAll(workers, nets);
      forall i :: 0 <= i < |workers| ==>
        && |traces[i].events| >= 1
        && (traces[i].events[0].TokenReceived? || traces[i].events[0].TokenFailed?)
        && forall k :: 0 <= k < |traces[i].events| ==> traces[i].events[k].env == workers[i].env
  {
    var traces := RunAll(workers, nets);
    forall i | 0 <= i < |workers|
      ensures |traces[i].events| >= 1
      ensures traces[i].events[0].TokenReceived? || traces[i].events[0].TokenFailed?
    {
      var w := workers[i];
      var step := TokenAndNotify(w.env, w.username, w.password, nets(w.env));
      assert traces[i].events[0] == step.events[0];
    }
  }

  /** Every checkbox names a configured environment, so a started worker never meets the
      unknown-environment error. */
  lemma EveryBoxConfigured(e: Env)
    ensures Config.Lookup(Key(e)).Some?
    ensures Key(e) in Config.EnvConfig
  {
    Config.RegistryKeys();
  }

  /** What a create worker posts, once it holds a token, is the JSON encoding of its payload,
      and that body reads back as the payload. */
  lemma CreateRunPostsPayload(w: Worker, net: Network)
    requires w.job.CreateJob?
    ensures var t := Run(w, net);
      |t.requests| == 2 ==>
        && t.requests[1].body == JsonBody(PayloadJson(w.job.payload))
        && DecodePayload(t.requests[1].body.json) == Some(w.job.payload)
  {
    FormFacts.PayloadRoundTrip(w.job.payload);
  }
}

=== FILE: worker_facts.dfy ===
/** Properties of the worker runs that relate several calls or hold across all three workers. */
module WorkerFacts {
  import opened Results
  import opened Json
  import Config
  import opened Workers

  /** An environment that is not configured fails with one error event before any request. */
  lemma UnknownEnvironmentIssuesNothing(job: Job, env: string, username: string, password: string, net: Network)
    requires env !in {"dev", "test", "preprod", "stage", "prod"}
    ensures Run(Worker(env, username, password, job), net) == Trace([TokenFailed(env, UnknownEnvironment(env))], [])
  {
    Config.RegistryKeys();
  }

  /** When the token step fails, a run emits its one token event and makes no feature request:
      it issues at most the token request itself. */
  lemma TokenFailureEndsRun(job: Job, env: string, username: string, password: string, net: Network)
    requires TokenAndNotify(env, username, password, net).token.None?
    ensures var t := Run(Worker(env, username, password, job), net);
      && |t.events| == 1 && t.events[0].TokenFailed? && t.events[0].IsError()
      && |t.requests| <= 1
      && forall i :: 0 <= i < |t.requests| ==> t.requests[i].body.FormBody?
  {
  }

  /** When the token step succeeds, the create and delete runs emit exactly two events
      (the token, then the result) and issue the token request and one feature request. */
  lemma SingleCallRunsEmitTwoEvents(job: Job, env: string, username: string, password: string, net: Network)
    requires !job.UpdateJob?
    requires TokenAndNotify(env, username, password, net).token.Some?
    ensures var t := Run(Worker(env, username, password, job), net);
      && |t.events| == 2 && t.events[0].TokenReceived? && !t.events[1].TokenReceived?
      && |t.requests| == 2
  {
  }

  /** The create run's feature request carries the run's token. */
  lemma CreateRequestCarriesToken(env: string, username: string, password: string, payload: Json, net: Network)
    requires TokenAndNotify(env, username, password, net).token.Some?
    ensures var t := RunCreate(env, username, password, payload, net);
      forall i :: 1 <= i < |t.requests| ==>
        Bearer(TokenAndNotify(env, username, password, net).token.value) in t.requests[i].headers
  {
    var t := RunCreate(env, username, password, payload, net);
    assert t.requests[1].headers[2] == Bearer(TokenAndNotify(env, username, password, net).token.value);
  }

  /** The delete run's feature request carries the run's token. */
  lemma DeleteRequestCarriesToken(env: string, id: string, username: string, password: string, net: Network)
    requires TokenAndNotify(env, username, password, net).token.Some?
    ensures var t := RunDelete(env, id, username, password, net);
      forall i :: 1 <= i < |t.requests| ==>
        Bearer(TokenAndNotify(env, username, password, net).token.value) in t.requests[i].headers
  {
    var t := RunDelete(env, id, username, password, net);
    assert t.requests[1].headers[1] == Bearer(TokenAndNotify(env, username, password, net).token.value);
  }

  /** Every PUT of the activity-update run carries the run's token. */
  lemma UpdateRequestsCarryToken(env: string, username: string, password: string,
                                 items: seq<(string, PyValue)>, net: Network)
    requires TokenAndNotify(env, username, password, net).token.Some?
    ensures var t := RunActivityUpdate(env, username, password, items, net);
      forall i :: 1 <= i < |t.requests| ==>
        Bearer(TokenAndNotify(env, username, password, net).token.value) in t.requests[i].headers
  {
    var t := RunActivityUpdate(env, username, password, items, net);
    var token := TokenAndNotify(env, username, password, net).token.value;
    forall i | 1 <= i < |t.requests| ensures Bearer(token) in t.requests[i].headers {
      assert t.requests[i].headers[2] == Bearer(token);
    }
  }

  /** Every feature request of a run carries the Authorization header with the one token
      obtained at the start of that run. */
  lemma FeatureRequestsCarryToken(job: Job, env: string, username: string, password: string, net: Network)
    requires TokenAndNotify(env, username, password, net).token.Some?
    ensures var t := Run(Worker(env, username, password, job), net);
      var token := TokenAndNotify(env, username, password, net).token.value;
      forall i :: 1 <= i < |t.requests| ==> Bearer(token) in t.requests[i].headers
  {
    match job
    case CreateJob(p) => CreateRequestCarriesToken(env, username, password, Forms.PayloadJson(p), net);
    case DeleteJob(id) => DeleteRequestCarriesToken(env, id, username, password, net);
    case UpdateJob(items) => UpdateRequestsCarryToken(env, username, password, items, net);
  }

  /** A worker holds a token exactly when its environment is configured and the token
      endpoint's reply issues one; the notification then shows its first 30 characters. */
  lemma TokenObtainedExactly(env: string, username: string, password: string, net: Network)
    ensures var step := TokenAndNotify(env, username, password, net);
      && step.token == (if env in Config.EnvConfig
                        then IssuedToken(net(0, TokenRequest(Config.EnvConfig[env].token, username, password)))
                        else None)
      && (step.token.Some? ==> step.events == [TokenReceived(env, Prefix(step.token.value, 30))])
  {
  }

  /** A token reply whose access_token is missing or the empty string is refused. */
  lemma EmptyTokenRefused(env: string, username: string, password: string, net: Network, fields: map<string, Json>)
    requires env in Config.EnvConfig
    requires var q := TokenRequest(Config.EnvConfig[env].token, username, password);
      Accepted(net(0, q)) && net(0, q).parsed == Some(JObject(fields))
    requires "access_token" !in fields || fields["access_token"] == JString("")
    ensures GetToken(env, username, password, net).result == Failure(AccessTokenMissing)
    ensures TokenAndNotify(env, username, password, net).events == [TokenFailed(env, AccessTokenMissing)]
  {
  }

  /** Two networks that answer alike except possibly at call `d`: one pass of the update loop
      issues the same request on both, and the same event unless its call is `d`. */
  lemma UpdateOneIsolated(env: string, base: string, token: string, item: (string, PyValue),
      net1: Network, net2: Network, index: nat, d: nat)
    requires forall j: nat, q: Request :: j != d ==> net1(j, q) == net2(j, q)
    ensures UpdateOne(env, base, token, item, net1, index).request == UpdateOne(env, base, token, item, net2, index).request
    ensures index != d ==> UpdateOne(env, base, token, item, net1, index) == UpdateOne(env, base, token, item, net2, index)
  {
    var c1 := SendRequest("PUT", UpdateUrl(base, item.0, item.1), JsonHeaders(token), None, net1, index);
    var c2 := SendRequest("PUT", UpdateUrl(base, item.0, item.1), JsonHeaders(token), None, net2, index);
    assert c1.issued == c2.issued;
    if index != d {
      assert net1(index, c1.issued[0]) == net2(index, c1.issued[0]);
      assert c1 == c2;
    }
  }

  /** The same two networks make the whole update loop issue the same requests and emit the
      same event at every item whose call is not `d`. */
  lemma UpdateItemsIsolated(env: string, base: string, token: string,
      items: seq<(string, PyValue)>, net1: Network, net2: Network, first: nat, d: nat)
    requires forall j: nat, q: Request :: j != d ==> net1(j, q) == net2(j, q)
    ensures UpdateItems(env, base, token, items, net1, first).requests == UpdateItems(env, base, token, items, net2, first).requests
    ensures forall i :: 0 <= i < |items| && first + i != d ==>
      UpdateItems(env, base, token, items, net1, first).events[i] == UpdateItems(env, base, token, items, net2, first).events[i]
  {
    forall i | 0 <= i < |items| {
      UpdateOneIsolated(env, base, token, items[i], net1, net2, first + i, d);
    }
  }

  /** Per-item failure isolation of the activity update: whatever call `d` answers (a failure,
      say), every other item is still requested and gets the event it would have had. */
  lemma ActivityUpdateIsolated(env: string, username: string, password: string,
      items: seq<(string, PyValue)>, net1: Network, net2: Network, d: nat)
    requires d >= 1
    requires forall j: nat, q: Request :: j != d ==> net1(j, q) == net2(j, q)
    ensures RunActivityUpdate(env, username, password, items, net1).requests
         == RunActivityUpdate(env, username, password, items, net2).requests
    ensures |RunActivityUpdate(env, username, password, items, net1).events|
         == |RunActivityUpdate(env, username, password, items, net2).events|
    ensures forall i :: 0 <= i < |RunActivityUpdate(env, username, password, items, net1).events| && i != d ==>
      RunActivityUpdate(env, username, password, items, net1).events[i]
        == RunActivityUpdate(env, username, password, items, net2).events[i]
  {
    var s1 := TokenAndNotify(env, username, password, net1);
    var s2 := TokenAndNotify(env, username, password, net2);
    if env in Config.EnvConfig {
      var q := TokenRequest(Config.EnvConfig[env].token, username, password);
      assert net1(0, q) == net2(0, q);
    }
    assert GetToken(env, username, password, net1) == GetToken(env, username, password, net2);
    assert s1 == s2;
    if s1.token.Some? {
      var base := Config.EnvConfig[env].feature;
      UpdateItemsIsolated(env, base, s1.token.value, items, net1, net2, 1, d);
      var l1 := UpdateItems(env, base, s1.token.value, items, net1, 1);
      var l2 := UpdateItems(env, base, s1.token.value, items, net2, 1);
      var t1 := RunActivityUpdate(env, username, password, items, net1);
      var t2 := RunActivityUpdate(env, username, password, items, net2);
      assert t1.events == s1.events + l1.events;
      assert t2.events == s2.events + l2.events;
      forall i | 0 <= i < |t1.events| && i != d ensures t1.events[i] == t2.events[i] {
        if i > 0 { assert t1.events[i] == l1.events[i - 1] && t2.events[i] == l2.events[i - 1]; }
      }
    }
  }

  /** The update URL carries Python's rendering of the flag: `.../a.b.c/enabled/True`. */
  lemma UpdateUrlUsesPythonBooleans(base: string)
    ensures UpdateUrl(base, "a.b.c", PyBool(true)) == base + "/a.b.c/enabled/True"
    ensures UpdateUrl(base, "a.b.c", PyBool(false)) == base + "/a.b.c/enabled/False"
    ensures UpdateUrl(base, "a.b.c", PyBool(true)) != base + "/a.b.c/enabled/true"
  {
    var u := UpdateUrl(base, "a.b.c", PyBool(true));
    assert u[|u| - 4] == 'T';
  }
}

=== FILE: workers.dfy ===
/** The per-environment workers: token acquisition, the HTTP request executor, and the
    create, delete and activity-update runs. Each run is a pure function of its inputs and
    of a network oracle; it yields the events it emits and the requests it issues, in order. */
module Workers {
  import opened Results
  import opened Json
  import opened Text
  import Config
  import Forms

  /** A request body: none, the form fields of the token request, or a JSON document. */
  datatype Body = NoBody | FormBody(form: seq<(string, string)>) | JsonBody(json: Json)

  /** One HTTP request as issued: verb, URL, headers in insertion order, body. */
  datatype Request = Request(verb: string, url: string, headers: seq<(string, string)>, body: Body)

  /** What the network answers to one request: either the call raised before any response
      (connection, TLS, timeout), or a response with its status, its text, and what
      `response.json()` yields for that text (None when parsing raises). */
  datatype HttpReply =
    | Unreachable
    | Reply(status: int, text: string, parsed: Option<Json>)

  /** The network oracle: the answer to the request issued as the n-th call of a run
      (the token request is call 0, feature requests follow). */
  type Network = (nat, Request) -> HttpReply

  /** The exceptions a run can meet, as values. */
  datatype Error =
    | UnknownEnvironment(key: string)         // the key is not in the registry
    | TransportError                          // the request raised before a response
    | HttpStatusError(status: int, text: string)  // raise_for_status: a 4xx or 5xx status
    | BodyNotJson                             // response.json() raised on the token reply
    | BodyNotObject                           // the token reply is JSON but not an object
    | AccessTokenMissing                      // access_token absent or falsy
    | TokenNotText                            // the access_token value cannot be sliced
    | UnsupportedMethod(verb: string)       // send_request got another method

  /** What a successful feature request returns: the parsed JSON, or else the raw text. */
  datatype Response = Parsed(json: Json) | RawText(text: string)

  /** The notifications a worker emits, tagged by environment and kind instead of text. */
  datatype Event =
    | TokenReceived(env: string, shown: string)
    | TokenFailed(env: string, error: Error)
    | Created(env: string, response: Response)
    | CreateFailed(env: string, error: Error)
    | Deleted(env: string, id: string)
    | DeleteFailed(env: string, error: Error)
    | ActivityUpdated(env: string, id: string, enabled: string, response: Response)
    | ActivityUpdateFailed(env: string, id: string, error: Error)
  {
    /** The event reports a failure. */
    predicate IsError()
    {
      TokenFailed? || CreateFailed? || DeleteFailed? || ActivityUpdateFailed?
    }
  }

  /** Everything one run does that can be observed: its events and its requests. */
  datatype Trace = Trace(events: seq<Event>, requests: seq<Request>)

  /** A value of an update pair's second element, as far as `str()` is concerned. */
  datatype PyValue = PyBool(flag: bool) | PyText(text: string)

  /** Python's `str()` of such a value: booleans print capitalised. */
  function PyStr(v: PyValue): string
  {
    match v
    case PyBool(b) => if b then "True" else "False"
    case PyText(t) => t
  }

  /** `requests`' raise_for_status: client (4xx) and server (5xx) statuses raise. */
  predicate IsHttpError(status: int)
  {
    400 <= status < 600
  }

  /** The network answered with a status that raise_for_status lets through. */
  predicate Accepted(reply: HttpReply)
  {
    reply.Reply? && !IsHttpError(reply.status)
  }

  /** What `send_request` returns for a reply it accepts: the parsed JSON, else the raw text. */
  function ReplyResponse(reply: HttpReply): Response
    requires reply.Reply?
  {
    match reply.parsed
    case Some(j) => Parsed(j)
    case None => RawText(reply.text)
  }

  /** The exception a refused reply raises: the transport error when nothing came back, the
      HTTPError with the status and text for a 4xx/5xx status. */
  function ReplyError(reply: HttpReply): Error
    requires !Accepted(reply)
  {
    match reply
    case Unreachable => TransportError
    case Reply(status, text, _) => HttpStatusError(status, text)
  }

  /** The password-grant request sent to an environment's token endpoint. */
  function TokenRequest(tokenUrl: string, username: string, password: string): Request
  {
    Request("POST", tokenUrl,
      [("Content-Type", "application/x-www-form-urlencoded")],
      FormBody([("client_id", "feature-service"), ("username", username),
                ("grant_type", "password"), ("password", password)]))
  }

  /** The token a reply of the token endpoint hands to a worker, if any: the reply is
      accepted, its JSON is an object, and its access_token is a non-empty string. */
  function IssuedToken(reply: HttpReply): Option<string>
  {
    match reply
    case Reply(status, _, Some(JObject(fields))) =>
      if !IsHttpError(status) && "access_token" in fields && fields["access_token"].JString?
         && fields["access_token"].str != ""
      then Some(fields["access_token"].str) else None
    case _ => None
  }

  /** The outcome of get_token: the requests it issued and the token or the error. */
  datatype TokenAttempt = TokenAttempt(issued: seq<Request>, result: Result<Json, Error>)

  /** get_token: looks the environment up, posts the credentials to its token endpoint and
      returns the truthy `access_token` of the JSON reply. */
  function GetToken(env: string, username: string, password: string, net: Network): (r: TokenAttempt)
    ensures env !in Config.EnvConfig ==> r.issued == [] && r.result == Failure(UnknownEnvironment(env))
    ensures env in Config.EnvConfig ==>
      r.issued == [TokenRequest(Config.EnvConfig[env].token, username, password)]
    ensures r.result.Success? ==>
      && env in Config.EnvConfig
      && Accepted(net(0, r.issued[0]))
      && net(0, r.issued[0]).parsed.Some?
      && net(0, r.issued[0]).parsed.value.JObject?
      && "access_token" in net(0, r.issued[0]).parsed.value.fields
      && r.result.value == net(0, r.issued[0]).parsed.value.fields["access_token"]
      && Truthy(r.result.value)
    ensures env in Config.EnvConfig ==>
      var reply := net(0, r.issued[0]);
      && (reply.Unreachable? ==> r.result == Failure(TransportError))
      && (reply.Reply? && IsHttpError(reply.status) ==> r.result == Failure(HttpStatusError(reply.status, reply.text)))
      && (Accepted(reply) && reply.parsed.None? ==> r.result == Failure(BodyNotJson))
      && (Accepted(reply) && reply.parsed.Some? && !reply.parsed.value.JObject? ==> r.result == Failure(BodyNotObject))
      && (Accepted(reply) && reply.parsed.Some? && reply.parsed.value.JObject? ==>
            var fields := reply.parsed.value.fields;
            r.result == if "access_token" in fields && Truthy(fields["access_token"])
                        then Success(fields["access_token"]) else Failure(AccessTokenMissing))
  {
    match Config.Lookup(env)
    case None => TokenAttempt([], Failure(UnknownEnvironment(env)))
    case Some(urls) =>
      var request := TokenRequest(urls.token, username, password);
      var result :=
        match net(0, request)
        case Unreachable => Failure(TransportError)
        case Reply(status, text, parsed) =>
          if IsHttpError(status) then Failure(HttpStatusError(status, text))
          else if parsed.None? then Failure(BodyNotJson)
          else if !parsed.value.JObject? then Failure(BodyNotObject)
          else if "access_token" !in parsed.value.fields then Failure(AccessTokenMissing)
          else if !Truthy(parsed.value.fields["access_token"]) then Failure(AccessTokenMissing)
          else Success(parsed.value.fields["access_token"]);
      TokenAttempt([request], result)
  }

  /** The first `n` characters of `s`, or all of it when shorter (Python's `s[:n]`). */
  function Prefix(s: string, n: nat): (r: string)
    ensures |r| == if |s| < n then |s| else n
    ensures StartsWith(s, r)
  {
    if |s| < n then s else s[..n]
  }

  /** The outcome of get_token_and_notify: its one event, its requests and the token. */
  datatype TokenStep = TokenStep(events: seq<Event>, issued: seq<Request>, token: Option<string>)

  /** get_token_and_notify: emits exactly one event; on success it shows at most the first
      30 characters of the token and returns the token, on any failure it returns none. */
  function TokenAndNotify(env: string, username: string, password: string, net: Network): (r: TokenStep)
    ensures |r.events| == 1 && r.events[0].env == env
    ensures r.issued == GetToken(env, username, password, net).issued
    ensures r.token.Some? <==> r.events[0].TokenReceived?
    ensures r.token.None? <==> r.events[0].TokenFailed?
    ensures GetToken(env, username, password, net).result.Failure? ==> r.token.None?
    ensures r.token.Some? ==>
      && GetToken(env, username, password, net).result == Success(JString(r.token.value))
      && r.token.value != ""
      && |r.issued| == 1
      && env in Config.EnvConfig
      && StartsWith(r.token.value, r.events[0].shown)
      && |r.events[0].shown| <= 30
      && (|r.token.value| >= 30 ==> |r.events[0].shown| == 30)
    ensures var g := GetToken(env, username, password, net).result;
      && (g.Failure? ==> r.token == None && r.events == [TokenFailed(env, g.error)])
      && (g.Success? && g.value.JString? ==>
            r.token == Some(g.value.str) && r.events == [TokenReceived(env, Prefix(g.value.str, 30))])
      && (g.Success? && !g.value.JString? ==> r.token == None && r.events == [TokenFailed(env, TokenNotText)])
  {
    var attempt := GetToken(env, username, password, net);
    match attempt.result
    case Failure(e) => TokenStep([TokenFailed(env, e)], attempt.issued, None)
    case Success(JString(t)) => TokenStep([TokenReceived(env, Prefix(t, 30))], attempt.issued, Some(t))
    case Success(_) => TokenStep([TokenFailed(env, TokenNotText)], attempt.issued, None)
  }

  /** The outcome of send_request: the request it issued (if any) and the response or error. */
  datatype Call = Call(issued: seq<Request>, result: Result<Response, Error>)

  /** The request methods send_request supports. */
  const SupportedMethods: set<string> := {"POST", "PUT", "DELETE"}

  /** send_request: issues one POST, PUT or DELETE (DELETE never carries the JSON body),
      propagates every failure, and returns the parsed JSON of the reply or its raw text. */
  function SendRequest(verb: string, url: string, headers: seq<(string, string)>,
                       json: Option<Json>, net: Network, index: nat): (r: Call)
    ensures verb !in SupportedMethods ==> r.issued == [] && r.result == Failure(UnsupportedMethod(verb))
    ensures verb in SupportedMethods ==>
      && |r.issued| == 1
      && r.issued[0].verb == verb && r.issued[0].url == url && r.issued[0].headers == headers
      && (r.issued[0].body == if verb != "DELETE" && json.Some? then JsonBody(json.value) else NoBody)
    ensures r.result.Success? <==> verb in SupportedMethods && Accepted(net(index, r.issued[0]))
    ensures r.result.Success? ==>
      r.result.value == (match net(index, r.issued[0]).parsed
                         case Some(j) => Parsed(j)
                         case None => RawText(net(index, r.issued[0]).text))
    ensures verb in SupportedMethods ==>
      var reply := net(index, r.issued[0]);
      && (reply.Unreachable? ==> r.result == Failure(TransportError))
      && (reply.Reply? && IsHttpError(reply.status) ==> r.result == Failure(HttpStatusError(reply.status, reply.text)))
  {
    if verb !in SupportedMethods then Call([], Failure(UnsupportedMethod(verb)))
    else
      var body := if verb != "DELETE" && json.Some? then JsonBody(json.value) else NoBody;
      var request := Request(verb, url, headers, body);
      var result :=
        match net(index, request)
        case Unreachable => Failure(TransportError)
        case Reply(status, text, parsed) =>
          if IsHttpError(status) then Failure(HttpStatusError(status, text))
          else if parsed.Some? then Success(Parsed(parsed.value))
          else Success(RawText(text));
      Call([request], result)
  }

  /** The Authorization header every feature request carries. */
  function Bearer(token: string): (string, string)
  {
    ("Authorization", "Bearer " + token)
  }

  /** The headers of the create and activity-update requests. */
  function JsonHeaders(token: string): seq<(string, string)>
  {
    [("accept", "*/*"), ("Content-Type", "application/json"), Bearer(token)]
  }

  /** The headers of the delete request. */
  function DeleteHeaders(token: string): seq<(string, string)>
  {
    [("accept", "*/*"), Bearer(token)]
  }

  /** The delete URL of one feature: the base, a slash, the id. */
  function DeleteUrl(base: string, id: string): string
  {
    base + "/" + id
  }

  /** The activity-update URL of one pair: base/id/enabled/str(enabled). */
  function UpdateUrl(base: string, id: string, enabled: PyValue): string
  {
    base + "/" + id + "/enabled/" + PyStr(enabled)
  }

  /** EnvWorker.run: a token, then one POST of the payload to the feature base URL. */
  function RunCreate(env: string, username: string, password: string, payload: Json, net: Network): (t: Trace)
    ensures |t.events| >= 1 && t.events[0] == TokenAndNotify(env, username, password, net).events[0]
    ensures forall i :: 0 <= i < |t.events| ==> t.events[i].env == env
    ensures TokenAndNotify(env, username, password, net).token.None? ==>
      |t.events| == 1 && t.requests == GetToken(env, username, password, net).issued
    ensures TokenAndNotify(env, username, password, net).token.Some? ==>
      var token := TokenAndNotify(env, username, password, net).token.value;
      && env in Config.EnvConfig
      && |t.events| == 2 && |t.requests| == 2
      && t.requests[0] == GetToken(env, username, password, net).issued[0]
      && t.requests[1] == Request("POST", Config.EnvConfig[env].feature, JsonHeaders(token), JsonBody(payload))
      && (t.events[1].Created? <==> Accepted(net(1, t.requests[1])))
      && (t.events[1].CreateFailed? <==> !Accepted(net(1, t.requests[1])))
      && (Accepted(net(1, t.requests[1])) ==> t.events[1] == Created(env, ReplyResponse(net(1, t.requests[1]))))
      && (!Accepted(net(1, t.requests[1])) ==> t.events[1] == CreateFailed(env, ReplyError(net(1, t.requests[1]))))
  {
    var step := TokenAndNotify(env, username, password, net);
    if step.token.None? then Trace(step.events, step.issued)
    else
      var token := step.token.value;
      var call := SendRequest("POST", Config.EnvConfig[env].feature, JsonHeaders(token), Some(payload), net, 1);
      var event := match call.result
        case Success(resp) => Created(env, resp)
        case Failure(e) => CreateFailed(env, e);
      Trace(step.events + [event], step.issued + call.issued)
  }

  /** DeleteEnvWorker.run: a token, then one DELETE of base/id, without a body. */
  function RunDelete(env: string, id: string, username: string, password: string, net: Network): (t: Trace)
    ensures |t.events| >= 1 && t.events[0] == TokenAndNotify(env, username, password, net).events[0]
    ensures forall i :: 0 <= i < |t.events| ==> t.events[i].env == env
    ensures TokenAndNotify(env, username, password, net).token.None? ==>
      |t.events| == 1 && t.requests == GetToken(env, username, password, net).issued
    ensures TokenAndNotify(env, username, password, net).token.Some? ==>
      var token := TokenAndNotify(env, username, password, net).token.value;
      && env in Config.EnvConfig
      && |t.events| == 2 && |t.requests| == 2
      && t.requests[0] == GetToken(env, username, password, net).issued[0]
      && t.requests[1] == Request("DELETE", Config.EnvConfig[env].feature + "/" + id, DeleteHeaders(token), NoBody)
      && (t.events[1] == Deleted(env, id) <==> Accepted(net(1, t.requests[1])))
      && (t.events[1].DeleteFailed? <==> !Accepted(net(1, t.requests[1])))
      && (!Accepted(net(1, t.requests[1])) ==> t.events[1] == DeleteFailed(env, ReplyError(net(1, t.requests[1]))))
  {
    var step := TokenAndNotify(env, username, password, net);
    if step.token.None? then Trace(step.events, step.issued)
    else
      var token := step.token.value;
      var url := DeleteUrl(Config.EnvConfig[env].feature, id);
      var call := SendRequest("DELETE", url, DeleteHeaders(token), None, net, 1);
      var event := match call.result
        case Success(_) => Deleted(env, id)
        case Failure(e) => DeleteFailed(env, e);
      Trace(step.events + [event], step.issued + call.issued)
  }

  /** One pass of the update loop: the request it issues and the signal it leads to. */
  datatype Step = Step(request: Request, event: Event)

  /** One pass of the update loop: the PUT of base/id/enabled/str(enabled) with no body, and
      the signal it leads to; `index` numbers the call. */
  function UpdateOne(env: string, base: string, token: string, item: (string, PyValue),
                     net: Network, index: nat): (s: Step)
    ensures s.request == Request("PUT", UpdateUrl(base, item.0, item.1), JsonHeaders(token), NoBody)
    ensures s.event.ActivityUpdated? <==> Accepted(net(index, s.request))
    ensures s.event.ActivityUpdated? || s.event.ActivityUpdateFailed?
    ensures s.event.env == env && s.event.id == item.0
    ensures s.event.ActivityUpdated? ==> s.event.enabled == PyStr(item.1)
    ensures Accepted(net(index, s.request)) ==>
      s.event == ActivityUpdated(env, item.0, PyStr(item.1), ReplyResponse(net(index, s.request)))
    ensures !Accepted(net(index, s.request)) ==>
      s.event == ActivityUpdateFailed(env, item.0, ReplyError(net(index, s.request)))
  {
    var (id, enabled) := item;
    var call := SendRequest("PUT", UpdateUrl(base, id, enabled), JsonHeaders(token), None, net, index);
    var event := match call.result
      case Success(resp) => ActivityUpdated(env, id, PyStr(enabled), resp)
      case Failure(e) => ActivityUpdateFailed(env, id, e);
    Step(call.issued[0], event)
  }

  /** The activity-update loop: one pass per pair, in list order, with calls numbered from
      `first`; a failed item yields its error event and the loop goes on. */
  function UpdateItems(env: string, base: string, token: string, items: seq<(string, PyValue)>,
                       net: Network, first: nat): (t: Trace)
    ensures |t.events| == |items| && |t.requests| == |items|
    ensures forall i :: 0 <= i < |items| ==>
      && t.events[i] == UpdateOne(env, base, token, items[i], net, first + i).event
      && t.requests[i] == UpdateOne(env, base, token, items[i], net, first + i).request
    ensures forall i :: 0 <= i < |items| ==>
      && t.requests[i] == Request("PUT", UpdateUrl(base, items[i].0, items[i].1), JsonHeaders(token), NoBody)
      && (t.events[i].ActivityUpdated? || t.events[i].ActivityUpdateFailed?)
      && t.events[i].env == env && t.events[i].id == items[i].0
      && (t.events[i].ActivityUpdated? <==> Accepted(net(first + i, t.requests[i])))
  {
    var steps := seq(|items|, i requires 0 <= i < |items| => UpdateOne(env, base, token, items[i], net, first + i));
    Trace(seq(|items|, i requires 0 <= i < |items| => steps[i].event),
          seq(|items|, i requires 0 <= i < |items| => steps[i].request))
  }

  /** ActivityUpdateWorker.run: a token, then the update loop over all pairs. */
  function RunActivityUpdate(env: string, username: string, password: string,
                             items: seq<(string, PyValue)>, net: Network): (t: Trace)
    ensures |t.events| >= 1 && t.events[0] == TokenAndNotify(env, username, password, net).events[0]
    ensures forall i :: 0 <= i < |t.events| ==> t.events[i].env == env
    ensures TokenAndNotify(env, username, password, net).token.None? ==>
      |t.events| == 1 && t.requests == GetToken(env, username, password, net).issued
    ensures TokenAndNotify(env, username, password, net).token.Some? ==>
      var token := TokenAndNotify(env, username, password, net).token.value;
      && env in Config.EnvConfig
      && |t.events| == 1 + |items| && |t.requests| == 1 + |items|
      && t.requests[0] == GetToken(env, username, password, net).issued[0]
      && forall i :: 0 <= i < |items| ==>
           var one := UpdateOne(env, Config.EnvConfig[env].feature, token, items[i], net, 1 + i);
           t.events[1 + i] == one.event && t.requests[1 + i] == one.request
  {
    var step := TokenAndNotify(env, username, password, net);
    if step.token.None? then Trace(step.events, step.issued)
    else
      var loop := UpdateItems(env, Config.EnvConfig[env].feature, step.token.value, items, net, 1);
      Trace(step.events + loop.events, step.issued + loop.requests)
  }

  /** The worker classes with their constructor arguments beyond the credentials. */
  datatype Job =
    | CreateJob(payload: Forms.FeaturePayload)
    | DeleteJob(id: string)
    | UpdateJob(items: seq<(string, PyValue)>)

  /** One worker as constructed: its environment, the credentials and its job. */
  datatype Worker = Worker(env: string, username: string, password: string, job: Job)

  /** QThread.run of a worker, with the network it talks to. */
  function Run(w: Worker, net: Network): (t: Trace)
    ensures |t.events| >= 1 && t.events[0] == TokenAndNotify(w.env, w.username, w.password, net).events[0]
    ensures forall i :: 0 <= i < |t.events| ==> t.events[i].env == w.env
  {
    match w.job
    case CreateJob(p) => RunCreate(w.env, w.username, w.password, Forms.PayloadJson(p), net)
    case DeleteJob(id) => RunDelete(w.env, id, w.username, w.password, net)
    case UpdateJob(items) => RunActivityUpdate(w.env, w.username, w.password, items, net)
  }
}
